=== FILE: README.md ===
# Ticket tracker core, modelled in Dafny

This project models the decision logic of a small ticket tracker built on
Next.js and Oracle. The model has three parts:

- **The tickets endpoint** (`app/api/tickets/route.ts`). Each of its four
  handlers is a pure function. It takes the decoded request, the database's
  behaviour on that call and the tickets table (`map<int, TicketRecord>`).
  It returns the HTTP response, the table afterwards and the connection
  events of the call (`Acquire`, `Execute`, `Release`). The handlers are
  POST (create through the `create_ticket` procedure), GET (list), PATCH
  (set a status) and DELETE (remove by the `ticketId` query parameter).
- **The ticket page** (`app/page.tsx`). Every `useState` is one field of an
  immutable `PageState` record. Each handler is a transition from the
  current state and the way its `fetch` settled to the next state. This
  covers the status change, the two-step delete, the create form, closing
  either modal, the list refresh and the choice of screen. The pure list
  operations are a status replacement by id and a filter by id.
- **The page-head rules** (`components/SEO.tsx`). These are the brand suffix
  of the title, the `robots` directive string and the default schema.org
  record.

The module `Reconcile` joins the page to the endpoint. Suppose the page's
list is the listing the server returns for the current table, walked in a
given row order. Then after a status change or a confirmed delete it is
still the listing for that same order, whichever way the call ends: 200,
400 or 500. The proof runs through the exact
request the page builds. In particular `parseInt(String(id)) === id`
(`ParseIntOfNumberToString`), so the DELETE the page sends names the
staged ticket, for ids below 10^21 in magnitude. JavaScript writes larger
numbers in exponent form, which the model does not cover.

Files: `wrappers.dfy` (Option), `js_values.dfy` (JavaScript truthiness,
`parseInt`, integral `String(n)`), `tickets.dfy` (table, SQL statements,
listing query), `route.dfy` (handlers), `page.dfy` (page transitions),
`reconcile.dfy` (page against endpoint), `seo.dfy`.

## Modelling choices

- **The database.** The database's behaviour on each call is a parameter
  `Db(connects, executes)`. It says whether `getConnection` succeeds and
  whether the bound statement runs. Nothing is known about it beforehand.
- **Rows.** The order of the listing query, which has no ORDER BY, is a
  parameter `order`: a walk over ticket ids. `Walks(store, order)` says
  the walk visits every row of the table exactly once, as a full scan does.
  Every table has such a walk (`SomeWalk`).
- **Binds.** The model fixes three bind rules:
  - a text parameter takes a string, or NULL for `null`/`undefined`
    (stored as the empty string, which Oracle does not tell apart from
    NULL);
  - the owner takes a number or NULL;
  - the PATCH key takes a number.

  The driver refuses any other value, so the statement fails with a 500.
  DELETE binds `parseInt(ticketId)`. When that is NaN the statement fails
  in the same way.
- **The `create_ticket` procedure.** Its body is not visible. The id it
  assigns and the status a new ticket starts with are a parameter
  `Assigned(id, status)`. An assigned id already in the table is a key
  violation and fails the statement.
- **Connection tracking.** A handler that never acquires a connection has
  the trace `[]`. One that does has `[Acquire, Execute, Release]`. The
  predicate `ReleasedOnce` states the `finally` discipline: one release,
  and only after an acquire.
- **Behaviour of the code that a reader might not expect:**
  - POST has no presence check: a missing title goes to the procedure as
    NULL.
  - PATCH accepts any truthy number as the id, negative ones included, and
    any non-empty status string, not only the four listed statuses.
  - A DELETE id that is not numeric (`abc`) gives 500, not 400.
  - A DELETE id with trailing text (`12abc`) deletes ticket 12, because
    `parseInt` is lenient.
  - The listing has no defined order.
  - A failed status change whose `fetch` throws something that is not an
    Error shows "Failed to update status". A response that is not ok and
    has no `error` field shows "Failed to update ticket status".
  - A ticket whose id is 0 can be staged for deletion, but confirming does
    nothing, because `if (!ticketToDelete) return` treats 0 as missing.

## Model

| member | source | states |
|---|---|---|
| TicketRoute.Post | app/api/tickets/route.ts:6-32 | 201 or 500 only. Any 500 carries the fixed text "Error" and leaves the table unchanged. A 201 comes exactly when the body parsed, the database connected and ran the call, the procedure's id was free, and the title, description and owner all bind. A 201 adds exactly one row under that id, holding the bound title, description and owner and the procedure's status, and changes no other row. A connection is held exactly when the body parsed and the database connected, and it is released once. |
| TicketRoute.Get | app/api/tickets/route.ts:34-67 | Never changes the table. Gives 200 exactly when the database connects and runs the query; the body is then the listing. Otherwise it gives 500 with the fixed text "DB error". Every listed ticket exists in the table and its description has at most 4000 characters. When the rows come back as a full scan, the listing has one ticket per row, every stored ticket appears, and no id appears twice. The connection is released once whenever it was acquired. |
| TicketRoute.Patch | app/api/tickets/route.ts:69-104 | A parsed body gets 400 "Ticket ID and status are required" exactly when `ticketId` or `status` is falsy. The 400 opens no connection and leaves the table as it was. A non-zero numeric id with a non-empty status string gets 200 whenever the database connects and runs the statement. A body that fails to parse gets 500 "Error updating ticket" with no connection. Any 500 carries only "Error updating ticket" and changes nothing. A 200 implies the database connected and ran the statement. A connection is opened exactly when the body parsed, `ticketId` and `status` are truthy and the database connects. A 200 sets the status of the row with that id to the given string verbatim. |
| TicketRoute.Delete | app/api/tickets/route.ts:106-137 | A parsed URL gets 400 "Ticket ID is required" exactly when the `ticketId` parameter is absent or empty. The 400 opens no connection and leaves the table as it was. A parameter that `parseInt` reads as a number gets 200 whenever the database connects and runs the statement. A URL that fails to parse gets 500 "Error deleting ticket" with no connection. Any 500 carries only "Error deleting ticket" and changes nothing. A 200 implies the database connected and ran the statement. A connection is opened exactly when the URL parsed, the parameter is non-empty and the database connects. A 200 also means `parseInt` read a number, and that row alone is gone. |
| TicketRoute.SearchParam | app/api/tickets/route.ts:110-111 | The result is the value of the first pair with the requested name. It is None exactly when no pair has that name. |
| TicketRoute.DeleteIdempotent | app/api/tickets/route.ts:122-130 | Repeating a DELETE that succeeded answers 200 again and changes nothing more. |
| TicketRoute.DeletedNeverListed | app/api/tickets/route.ts:122-128 | After a successful DELETE, no listing contains the deleted id. |
| TicketRoute.PatchedStatusListed | app/api/tickets/route.ts:85-92 | After a successful PATCH, every listed ticket with that id shows the new status string. |
| TicketRoute.PatchMissingIdIsNoOp | app/api/tickets/route.ts:85-97 | A PATCH for an id absent from the table still answers 200 "Ticket status updated" and leaves the table unchanged. |
| TicketRoute.BindText | app/api/tickets/route.ts:18-19 | A text parameter accepts a string, `null` or `undefined`, and nothing else. |
| TicketRoute.BindOwner | app/api/tickets/route.ts:20 | The owner parameter accepts a number, `null` or `undefined`, and nothing else. |
| TicketRoute.BindKey | app/api/tickets/route.ts:89 | The PATCH key accepts a number and nothing else. |
| TicketRoute.RequestedId | app/api/tickets/route.ts:110-125 | A DELETE names an id only when its URL parsed and its `ticketId` parameter is present and non-empty. The id is then `parseInt` of that parameter. |
| TicketRoute.ListedWhenPresent | app/api/tickets/route.ts:40-58 | A stored ticket whose id the listing query reaches appears in the listing, with its stored title, its description cut to 4000 characters, and its status. |
| TicketRoute.CreateThenList | app/api/tickets/route.ts:6-32 | Creating the example printer ticket under a free id answers 201, adds exactly that row, and the next listing shows it with status OPEN. |
| TicketRoute.PatchThenList | app/api/tickets/route.ts:69-104 | Moving a stored, listed ticket to IN PROGRESS answers 200, changes only that row's status, and the next listing shows the new status. |
| TicketRoute.DeleteByDecimalId | app/api/tickets/route.ts:106-137 | A DELETE whose `ticketId` is any id written in decimal removes exactly that id and answers 200 "Ticket deleted", with the connection released once. This still holds when text follows that does not start with a digit, or, after a lone `0`, with `x` or `X`. |
| TicketRoute.DeleteByDecimalText | app/page.tsx:145 | The query `ticketId=${id}` that the page builds deletes exactly that id and answers 200, for every id below 10^21 in magnitude (the model writes every id in decimal). |
| TicketRoute.DeleteReadsLeadingDigits | app/api/tickets/route.ts:122-128 | `?ticketId=12abc` deletes ticket 12 and answers 200. |
| TicketRoute.PatchWritesStatus | app/api/tickets/route.ts:76-97 | For a stored, non-zero id, any non-empty status string is written into that row verbatim, the answer is 200 "Ticket status updated", and nothing else changes. |
| TicketRoute.DeleteTwice | app/api/tickets/route.ts:106-137 | Deleting by decimal id removes the ticket from every listing. Deleting it again still answers 200 and changes nothing. |
| TicketRoute.TicketLifecycle | app/api/tickets/route.ts:6-137 | Over any table and any free, non-zero id, one ticket is created and listed as OPEN. It is then moved to IN PROGRESS and listed so. It is then deleted, so no listing shows it, and deleting it again succeeds. |
| Tickets.LobPrefix | app/api/tickets/route.ts:45 | The description returned is a prefix of the stored one, of length min(length, 4000). |
| Tickets.UpdateStatusRow | app/api/tickets/route.ts:85-92 | The UPDATE keeps the set of ids. It changes only the status field of the matching row and leaves a missing id without effect. |
| Tickets.DeleteRow | app/api/tickets/route.ts:122-128 | The DELETE removes exactly the given id and keeps every other row as it was. |
| Tickets.Scan | app/api/tickets/route.ts:40-51 | Each row of the result set is the selected projection of a row that exists in the table, and the walk yields at most one row per step. |
| Tickets.DecodeRows | app/api/tickets/route.ts:53-58 | A missing row set gives the empty list. Otherwise the count and order are kept and each field is copied from its upper-cased column. |
| Tickets.ListingCons | app/api/tickets/route.ts:53-58 | The listing of a walk is the first id's ticket, if present, followed by the listing of the rest. |
| Tickets.ListingMatchesStore | app/api/tickets/route.ts:40-58 | Every listed ticket exists, with the stored title and status and the stored description cut to 4000 characters. Every stored id that the walk reaches is listed. |
| Tickets.ListingOfWalk | app/api/tickets/route.ts:40-58 | A walk over stored ids lists one ticket per step, in the walk's order, each built from its stored row. |
| Tickets.ListingShowsTable | app/api/tickets/route.ts:40-58 | A full scan lists every stored ticket exactly once and nothing else. The list is as long as the table, no id repeats, and each entry carries its stored fields with the description cut to 4000 characters. |
| Tickets.ListingOrderFree | app/api/tickets/route.ts:40-51 | Two full scans of the same table list the same tickets, the same number of them, whatever order each uses. |
| Tickets.SomeWalk | app/api/tickets/route.ts:40-51 | Every table can be scanned: a walk visiting each row once exists. |
| JsValues.TrimStart | app/api/tickets/route.ts:125 | `parseInt` drops exactly the leading white space, and nothing after it. |
| JsValues.DigitPrefix | app/api/tickets/route.ts:125 | `parseInt` reads the longest prefix of digits and stops at the first non-digit. |
| JsValues.ParseInt | app/api/tickets/route.ts:125 | A result needs a decimal digit somewhere in the text. Text that, after white space, starts with neither a sign nor a digit is NaN. Text that, after white space, starts with a digit 1-9 reads as a positive number. |
| JsValues.NumberToString | app/page.tsx:145 | `${id}` for an integer is non-empty. It starts with "-" exactly for negative numbers, and every other character is a decimal digit. JavaScript writes this decimal form only below 10^21 in magnitude. |
| JsValues.DecimalValue | app/page.tsx:145 | Reading the decimal text of a natural number gives the number back. |
| JsValues.ParseIntOfNumberToString | app/page.tsx:145 | `parseInt(String(n))` is `n` for every integer `n` below 10^21 in magnitude, including negatives. This still holds when text follows that does not start with a digit, or, after a lone `0`, with `x` or `X` (which would make a hexadecimal prefix). |
| JsValues.ParseIntSkipsWhiteSpace | app/api/tickets/route.ts:125 | Leading white space does not change what `parseInt` reads. |
| TicketPage.ReplaceStatus | app/page.tsx:119-125 | Length and order are kept. Each ticket with the target id gets the new status and every other ticket stays identical. |
| TicketPage.ReplaceStatusIdempotent | app/page.tsx:119-125 | Replacing the same status twice is the same as replacing it once. |
| TicketPage.FailureText | app/page.tsx:113-116 | For a response that is not ok, the message is the body's `error` if non-empty, else the handler's fallback. For a throw, it is the Error's message, else the `catch` block's fallback. |
| TicketPage.RemoveById | app/page.tsx:155-157 | A ticket is kept exactly when it was in the list and has a different id. |
| TicketPage.RemoveByIdAppend | app/page.tsx:155-157 | The filter keeps relative order, because it distributes over concatenation. |
| TicketPage.RemoveAbsentId | app/page.tsx:155-157 | A list without the id is returned unchanged. |
| TicketPage.StatusChangeStart | app/page.tsx:97-99 | While the PATCH is in flight, `updatingStatus` is the ticket id, the error is cleared and the list is untouched. |
| TicketPage.StatusChangeEnd | app/page.tsx:113-130 | Once the PATCH settles, `updatingStatus` is null on both paths. On success the list gets the status replacement. On failure the list stays and the error is set. No other field changes. |
| TicketPage.HandleStatusChange | app/page.tsx:97-131 | Confirm-then-apply. Only an ok reply changes the list, and only the status of the tickets with that id. On a response that is not ok, the error is the body's `error` if non-empty, else "Failed to update ticket status". On a throw, it is the Error's message, else "Failed to update status". The busy mark always ends null, and no other field changes. |
| TicketPage.HandleDeleteClick | app/page.tsx:133-136 | Stages the id and opens the confirmation. No other field changes. |
| TicketPage.DeleteQuery | app/page.tsx:145 | The DELETE carries exactly one parameter, `ticketId`, and its value is never empty. |
| TicketPage.DeleteConfirmStart | app/page.tsx:141-142 | The delete is marked busy and the error is cleared. No other field changes. |
| TicketPage.DeleteConfirmEnd | app/page.tsx:149-166 | Once the DELETE settles, `deleting` is false on both paths. |
| TicketPage.HandleDeleteConfirm | app/page.tsx:138-167 | Does nothing when the target is null or 0. On an ok reply, the list is the filter by the staged id, so the other tickets keep their order; the dialog closes, and the target and error are cleared. On failure the list, the target and the dialog stay, and the error is the body's `error` or the Error's message, else "Failed to delete ticket". Only the list, error, busy flag, dialog and target can change. |
| TicketPage.HandleDeleteModalClose | app/page.tsx:175-179 | Closes the dialog and clears the target and the error. No other field changes. |
| TicketPage.SubmittedUserId | app/page.tsx:65 | The user id sent is never 0. It is the parsed number when that is non-zero, and 1 when the text is NaN or 0. |
| TicketPage.SubmitRequest | app/page.tsx:62-66 | The posted `userId` is always a truthy number. |
| TicketPage.HandleSubmit | app/page.tsx:51-88 | Success empties the form, clears its error and closes the modal. Failure keeps the form and the modal, and sets `formError` to the body's `error` or the Error's message, else "Failed to create ticket". `submitting` always ends false, and no other field changes. |
| TicketPage.HandleModalClose | app/page.tsx:169-173 | Closes the form, empties it and clears its error. No other field changes. |
| TicketPage.FetchTicketsEnd | app/page.tsx:31-45 | A successful fetch replaces the list wholesale. A response that is not ok sets the error to "Failed to fetch tickets", and a throw sets it to the thrown message; the list stays. Loading ends either way, and no other field changes. |
| TicketPage.SelectView | app/page.tsx:181-187 | The spinner shows exactly while loading. Otherwise the full-page error shows exactly when the error is non-empty and neither modal is open, and it shows that error. Every other state shows the main view. |
| TicketPage.FailedDeleteStaysInDialog | app/page.tsx:162-163 | A failed delete inside the open dialog keeps the page on the main view with the dialog, not on the full-page error. |
| TicketPage.FailedStatusChangeShowsError | app/page.tsx:126-127 | A failed status change with no modal open, and with a non-empty server message, leads to the full-page error with that message. |
| TicketPage.DeleteModalCloseHidesError | app/page.tsx:175-187 | Closing the delete dialog never leads to the full-page error. |
| TicketPage.ClickThenConfirm | app/page.tsx:133-167 | Staging a non-zero id and confirming with an ok reply removes that id from the list, keeps the rest in order, and leaves no dialog open. A staged 0 is never confirmed: the state stays as the click left it. |
| TicketPage.ClickThenCancel | app/page.tsx:133-136 | Staging a ticket and then cancelling ends in the same state as cancelling alone. |
| TicketPage.ModalCloseSettles | app/page.tsx:169-173 | Closing the form twice is the same as closing it once. Closing it after a successful submit changes nothing. |
| TicketPage.ClosingFormRevealsError | app/page.tsx:169-187 | A non-empty page error set while the form was open stays hidden behind it. Closing the form shows it full-page, unless the delete dialog is open. |
| TicketPage.HandlersKeepSpinner | app/page.tsx:97-187 | No event handler shows or hides the spinner. Only the fetch ends loading. |
| Reconcile.InitialFetchMirrors | app/page.tsx:31-49 | The first fetch against GET, when the database answers, makes the page list the table's listing and shows the main view. This is the mirror the lemmas below start from. When the database fails, the list stays empty and the full-page error reads "Failed to fetch tickets". |
| Reconcile.ReplyOf | app/page.tsx:113-116 | A reply is ok exactly for a 2xx status. A failed reply carries the `error` text of the server's body. |
| Reconcile.ListingAfterUpdate | app/page.tsx:119-125 | The listing after the UPDATE equals the page's status replacement applied to the earlier listing, in the same order. |
| Reconcile.ListingAfterDelete | app/page.tsx:155-157 | The listing after the DELETE equals the page's filter applied to the earlier listing. |
| Reconcile.DeleteQueryNamesId | app/page.tsx:145 | The page's `?ticketId=${id}` query passes the server's presence check, and the server reads the same id back, for ids below 10^21 in magnitude. |
| Reconcile.StatusChangeKeepsMirror | app/page.tsx:97-131 | A page list that mirrors the table still mirrors it after a status change, whatever the server answered. |
| Reconcile.StatusChangeRefusal | app/api/tickets/route.ts:76-81 | The page's PATCH gets 400 exactly when the id is 0 or the status is empty. The page then shows the server's message. |
| Reconcile.DeleteConfirmKeepsMirror | app/page.tsx:138-167 | The page's DELETE never gets a 400. It succeeds exactly when the database connects and runs the statement. Either way the page list still mirrors the table. This holds for staged ids below 10^21 in magnitude. |
| Reconcile.SubmitCreatesTicket | app/page.tsx:62-66 | The page's create request succeeds exactly when the database connects and runs the statement and the assigned id is free. The new row then holds the form's title and description and the non-zero submitted user id. |
| Reconcile.PostOfTextAndNumber | app/api/tickets/route.ts:13-25 | A create body of two strings and a number always binds. It succeeds exactly when the database connects and runs the statement and the id is free, and the new row then stores exactly those values. |
| Reconcile.SubmitClosesFormOnCreate | app/page.tsx:69-84 | The form closes exactly when the server answers 201, or when it was already closed. Otherwise it shows the server's "Error". |
| Seo.SuffixCarriesBrand | components/SEO.tsx:59 | Any title with the suffix appended contains "RixelDev". |
| Seo.FullTitle | components/SEO.tsx:59 | The result always contains "RixelDev" and begins with the title. It equals the title exactly when the title already contains the brand. Otherwise it is the title followed by the fixed brand suffix. |
| Seo.FullTitleIdempotent | components/SEO.tsx:59 | Applying the title rule twice is the same as applying it once. |
| Seo.RobotsContent | components/SEO.tsx:60-62 | The result starts with "noindex" exactly when `noindex` holds, and with "index" otherwise. Next comes ", nofollow" exactly when `nofollow` holds, and ", follow" otherwise. It always ends with the fixed preview limits. |
| Seo.RobotsContentInjective | components/SEO.tsx:60-62 | The directive string determines both flags. |
| Seo.Join | components/SEO.tsx:89 | Joining no parts gives the empty string, and joining one part gives that part. Otherwise the first part begins the result. |
| Seo.JoinSnoc | components/SEO.tsx:89 | Joining one more part appends the separator and that part. |
| Seo.ArticleMembers | components/SEO.tsx:80-90 | `dateModified` is the modification time when that is truthy, and the publication time otherwise. `articleSection` is present exactly when the section is truthy. `keywords` is present exactly when there are tags, and it is the tags joined with ", ". The author is always typed `Organization`. |
| Seo.DefaultStructuredData | components/SEO.tsx:65-91 | A passed object is used as it is. The default record has `@context` "https://schema.org". Its `@type` is "Article" exactly for article pages and "WebSite" for every other type. It carries the site, URL, description, image and the fixed publisher and logo. An article page carries exactly the article members, and no other page type carries any. |
| Seo.NonArticleIgnoresArticleProps | components/SEO.tsx:65-91 | For a page that is not an article, the default record does not depend on the title, author, dates, section or tags. |
| Seo.ArticleKeywords | components/SEO.tsx:80-90 | An article with one tag has that tag as its keywords. One more tag appends ", " and the tag. |

## Left out

- Oracle connection, driver and network behaviour: replaced by the `Db` parameter and the bind rules above. Implicit conversions the database might apply (a numeric string as an id, a number as a status) are not modelled. Such binds count as failing statements.
- `conn.close()` throwing inside `finally`: the model takes release to succeed.
- The body of the `create_ticket` procedure: only the assigned id and status are abstract. Whatever else the procedure checks shows up only as a failing statement, through `Db.executes`.
- `DBMS_LOB.SUBSTR` in a multi-byte character set can exceed Oracle's 4000-byte VARCHAR2 limit and raise an error. The model counts characters only.
- JSON body parsing and `new URL(req.url)`: each handler receives the decoded value, or None when decoding threw. Numbers are integers or NaN. Fractional numbers and the double rounding of large integers in `parseInt` are not modelled.
- JsValues.NumberToString: `${n}` is modelled as decimal text for every integer. JavaScript writes that form only for magnitudes below 10^21 and switches to exponent form ("1e+21") above, which `parseInt` reads as 1. Doubles of that size are outside the model.
- ParseIntOfNumberToString: the round trip is proved for the decimal text, so in JavaScript it holds only below 10^21 in magnitude (see the line above).
- DeleteByDecimalText: the page's query deletes its id only below 10^21 in magnitude. Above that, `${id}` is in exponent form and the server would read ticket 1.
- DeleteQueryNamesId: the server reads the same id back only below 10^21 in magnitude, for the same reason.
- DeleteConfirmKeepsMirror: the mirror after a confirmed delete holds only for staged ids below 10^21 in magnitude. Above that, the server removes another row than the page does.
- Concurrency: requests racing at the database (last write wins), React state batching, effect scheduling, and a second click while a request is in flight. Each transition is applied to the state current when it runs.
- `handleInputChange` and the "new ticket" button that opens the form: one-field record updates with no decision in them.
- `new URL(image, canonical)` (URL resolution) and `JSON.stringify` of the structured data: the resolved image URL is an input, and the record is a datatype.
- Reconcile's mirror lemmas hold the row order fixed across the calls they relate. A later GET may return the rows in another order. ListingOrderFree shows that list then has the same tickets, once each, but it need not equal the page's list position by position.
- The default prop values of `SEO` (components/SEO.tsx:31-57): each handler receives its props with the defaults already applied.
- The `console.error` logging in the handlers' catch blocks (app/api/tickets/route.ts:27, 62, 99, 132): it has no effect on the response or the table.
- All JSX markup and the presentational components. The second, constant Organization record in the page head is left out too.

=== FILE: js_values.dfy ===
/** JavaScript values as the request handlers and the page receive them, and the
    three conversions the code leans on: truthiness (`!x`, `x || y`, `x && y`),
    the global `parseInt`, and the decimal text of an integral Number. */
module JsValues {
  import opened Wrappers

  /** A decoded JSON / JavaScript value. Numbers are restricted to integral
      values plus NaN; objects and arrays are not looked into. */
  datatype JsValue =
    | Undefined
    | Null
    | Bool(b: bool)
    | Num(n: int)
    | NaN
    | Str(s: string)
    | Composite

  /** ToBoolean: the test behind `!x` and the short-circuit operators. */
  predicate Truthy(v: JsValue) {
    match v
    case Undefined => false
    case Null => false
    case Bool(b) => b
    case Num(n) => n != 0
    case NaN => false
    case Str(s) => s != ""
    case Composite => true
  }

  /** Truthiness of a `string | null` (or `string | undefined`) variable. */
  predicate TruthyText(o: Option<string>) {
    o.Some? && o.value != ""
  }

  /** WhiteSpace and LineTerminator code points, the characters `parseInt`
      skips before the number (section 12.2 and 12.3 of ECMA-262). */
  predicate IsWhiteSpace(c: char) {
    || c == '\t' || c == '\n' || c == '\U{000B}' || c == '\U{000C}' || c == '\r'
    || c == ' ' || c == '\U{00A0}' || c == '\U{1680}'
    || ('\U{2000}' <= c && c <= '\U{200A}')
    || c == '\U{2028}' || c == '\U{2029}' || c == '\U{202F}' || c == '\U{205F}'
    || c == '\U{3000}' || c == '\U{FEFF}'
  }

  /** `s` with its leading white space removed. */
  function TrimStart(s: string): (r: string)
    ensures |r| <= |s| && r == s[|s| - |r|..]
    ensures r == [] || !IsWhiteSpace(r[0])
    ensures forall i :: 0 <= i < |s| - |r| ==> IsWhiteSpace(s[i])
  {
    if s != [] && IsWhiteSpace(s[0]) then TrimStart(s[1..]) else s
  }

  /** The value of `c` as a digit of the given radix (10 or 16), if it is one. */
  function DigitValue(c: char, radix: nat): (d: Option<nat>)
    ensures d.Some? ==> d.value < radix
    ensures radix == 10 ==> (d.Some? <==> '0' <= c <= '9')
  {
    var v: int :=
      if '0' <= c <= '9' then c as int - '0' as int
      else if 'a' <= c <= 'z' then c as int - 'a' as int + 10
      else if 'A' <= c <= 'Z' then c as int - 'A' as int + 10
      else 36;
    if v < radix then Some(v) else None
  }

  /** The longest prefix of `s` made of digits of the radix. */
  function DigitPrefix(s: string, radix: nat): (z: string)
    ensures z <= s
    ensures forall i :: 0 <= i < |z| ==> DigitValue(z[i], radix).Some?
    ensures |z| < |s| ==> DigitValue(s[|z|], radix).None?
  {
    if s != [] && DigitValue(s[0], radix).Some? then [s[0]] + DigitPrefix(s[1..], radix) else []
  }

  /** The number a non-empty run of digits denotes, most significant first. */
  function DigitsValue(z: string, radix: nat): (v: nat)
    requires radix == 10 || radix == 16
    requires forall i :: 0 <= i < |z| ==> DigitValue(z[i], radix).Some?
    ensures |z| > 0 && DigitValue(z[0], radix).value > 0 ==> v > 0
  {
    if z == [] then 0
    else
      var init := z[..|z| - 1];
      assert forall i :: 0 <= i < |init| ==> init[i] == z[i];
      var high := DigitsValue(init, radix);
      (if radix == 10 then high * 10 else high * 16) + DigitValue(z[|z| - 1], radix).value
  }

  /** The global `parseInt(s)` with no radix argument (section 19.2.5 of ECMA-262):
      skip leading white space, take one optional sign, then read an unsigned
      number. None stands for NaN. The integer is exact here, without rounding
      to a double. */
  function ParseInt(s: string): (r: Option<int>)
    ensures r.Some? ==> exists i | 0 <= i < |s| :: '0' <= s[i] <= '9'
    ensures var t := TrimStart(s);
      t == [] || (t[0] != '-' && t[0] != '+' && !('0' <= t[0] <= '9')) ==> r.None?
    ensures var t := TrimStart(s);
      |t| > 0 && '1' <= t[0] <= '9' ==> r.Some? && r.value > 0
  {
    var t := TrimStart(s);
    if ParseSigned(t).None? then None
    else
      DigitInSuffix(s, t);
      ParseSigned(t)
  }

  /** A digit of a suffix is a digit of the whole text. */
  lemma DigitInSuffix(s: string, t: string)
    requires |t| <= |s| && t == s[|s| - |t|..]
    requires exists i | 0 <= i < |t| :: '0' <= t[i] <= '9'
    ensures exists i | 0 <= i < |s| :: '0' <= s[i] <= '9'
  {
    var i :| 0 <= i < |t| && '0' <= t[i] <= '9';
    assert s[|s| - |t| + i] == t[i];
  }

  /** `parseInt` after the white space: one optional sign, then the magnitude. */
  function ParseSigned(t: string): (r: Option<int>)
    ensures r.Some? ==> exists i | 0 <= i < |t| :: '0' <= t[i] <= '9'
    ensures t == [] || (t[0] != '-' && t[0] != '+' && !('0' <= t[0] <= '9')) ==> r.None?
    ensures |t| > 0 && '1' <= t[0] <= '9' ==> r.Some? && r.value > 0
  {
    if |t| > 0 && (t[0] == '-' || t[0] == '+') then
      match ParseMagnitude(t[1..])
      case None => None
      case Some(m) =>
        assert '0' <= t[1] <= '9' by {
          assert t[1..][0] == t[1];
        }
        Some(if t[0] == '-' then -(m as int) else m as int)
    else
      match ParseMagnitude(t)
      case None => None
      case Some(m) => Some(m as int)
  }

  /** The unsigned part of `parseInt`: radix 16 after a `0x`/`0X` prefix,
      radix 10 otherwise, then the longest run of digits; None if that run is empty. */
  function ParseMagnitude(u: string): (m: Option<nat>)
    ensures m.Some? ==> |u| > 0 && '0' <= u[0] <= '9'
    ensures |u| > 0 && '1' <= u[0] <= '9' ==> m.Some? && m.value > 0
  {
    var hex := |u| >= 2 && u[0] == '0' && (u[1] == 'x' || u[1] == 'X');
    var radix := if hex then 16 else 10;
    var z := DigitPrefix(if hex then u[2..] else u, radix);
    if z == [] then None else Some(DigitsValue(z, radix))
  }

  function DecimalDigit(d: nat): (c: char)
    requires d < 10
    ensures '0' <= c <= '9' && DigitValue(c, 10) == Some(d)
  {
    ('0' as int + d) as char
  }

  /** The shortest decimal text of a natural number. */
  function NatToDecimal(n: nat): (r: string)
    ensures |r| > 0
    ensures forall i :: 0 <= i < |r| ==> '0' <= r[i] <= '9'
    ensures n >= 10 ==> |r| >= 2
  {
    if n < 10 then [DecimalDigit(n)] else NatToDecimal(n / 10) + [DecimalDigit(n % 10)]
  }

  /** `String(n)` for an integral Number, as a template literal `${n}` writes it. */
  function NumberToString(n: int): (r: string)
    ensures |r| > 0
    ensures n < 0 <==> r[0] == '-'
    ensures forall i :: (if n < 0 then 1 else 0) <= i < |r| ==> '0' <= r[i] <= '9'
  {
    if n < 0 then "-" + NatToDecimal(-n) else NatToDecimal(n)
  }

  /** Reading back the decimal text of a natural number gives the number. */
  lemma {:induction false} DecimalValue(n: nat)
    ensures DigitsValue(NatToDecimal(n), 10) == n
  {
    var r := NatToDecimal(n);
    if n >= 10 {
      var p := NatToDecimal(n / 10);
      assert r == p + [DecimalDigit(n % 10)];
      assert r[..|r| - 1] == p;
      DecimalValue(n / 10);
    }
  }

  /** A run of decimal digits followed by a non-digit is read up to that non-digit. */
  lemma {:induction false} DigitPrefixOfDigits(digits: string, rest: string)
    requires forall i :: 0 <= i < |digits| ==> '0' <= digits[i] <= '9'
    requires rest == [] || !('0' <= rest[0] <= '9')
    ensures DigitPrefix(digits + rest, 10) == digits
  {
    if digits != [] {
      assert (digits + rest)[1..] == digits[1..] + rest;
      DigitPrefixOfDigits(digits[1..], rest);
    } else {
      assert digits + rest == rest;
    }
  }

  /** `rest` cannot continue the decimal text of `n`: it is empty or starts
      with a non-digit, and after a lone `0` it does not start with the `x`
      of a hexadecimal prefix. */
  predicate StopsNumber(n: int, rest: string) {
    rest == [] || (!('0' <= rest[0] <= '9') && (n == 0 ==> rest[0] != 'x' && rest[0] != 'X'))
  }

  /** Decimal digits followed by text that neither continues them nor makes a
      hexadecimal prefix are read as their decimal value. */
  lemma DecimalMagnitude(digits: string, rest: string, m: nat)
    requires digits == NatToDecimal(m)
    requires StopsNumber(m, rest)
    ensures ParseMagnitude(digits + rest) == Some(m)
  {
    var u := digits + rest;
    assert !(|u| >= 2 && u[0] == '0' && (u[1] == 'x' || u[1] == 'X')) by {
      if |digits| >= 2 {
        assert u[1] == digits[1];
      } else if |u| >= 2 {
        assert u[1] == rest[0];
      }
    }
    DigitPrefixOfDigits(digits, rest);
    DecimalValue(m);
  }

  /** `parseInt` reads back what `String(n)` writes, and stops at trailing text
      that does not continue the number (`parseInt("12abc") === 12`). */
  lemma ParseIntOfNumberToString(n: int, rest: string)
    requires StopsNumber(n, rest)
    ensures ParseInt(NumberToString(n) + rest) == Some(n)
  {
    var s := NumberToString(n) + rest;
    assert s[0] == NumberToString(n)[0];
    NoWhiteSpaceBefore(s);
    SignedOfNumberToString(n, rest);
  }

  /** Text that starts with a sign or a digit is not trimmed. */
  lemma NoWhiteSpaceBefore(s: string)
    requires s != [] && (s[0] == '-' || '0' <= s[0] <= '9')
    ensures TrimStart(s) == s
  {
    assert !IsWhiteSpace(s[0]);
  }

  lemma SignedOfNumberToString(n: int, rest: string)
    requires StopsNumber(n, rest)
    ensures ParseSigned(NumberToString(n) + rest) == Some(n)
  {
    if n < 0 {
      SignedOfNegativeNumber(-n, rest);
    } else {
      SignedOfNonNegative(n, rest);
    }
  }

  lemma SignedOfNegativeNumber(m: nat, rest: string)
    requires m > 0
    requires StopsNumber(m, rest)
    ensures ParseSigned(NumberToString(-(m as int)) + rest) == Some(-(m as int))
  {
    var digits := NatToDecimal(m);
    assert NumberToString(-(m as int)) == "-" + digits;
    assert ("-" + digits) + rest == "-" + (digits + rest);
    DecimalMagnitude(digits, rest, m);
    SignedOfNegative(digits + rest, m);
  }

  lemma SignedOfNonNegative(n: nat, rest: string)
    requires StopsNumber(n, rest)
    ensures ParseSigned(NatToDecimal(n) + rest) == Some(n)
  {
    var digits := NatToDecimal(n);
    DecimalMagnitude(digits, rest, n);
    assert (digits + rest)[0] == digits[0];
    SignedOfUnsigned(digits + rest, n);
  }

  lemma SignedOfNegative(u: string, m: nat)
    requires ParseMagnitude(u) == Some(m)
    ensures ParseSigned("-" + u) == Some(-(m as int))
  {
    var t := "-" + u;
    assert t[1..] == u;
  }

  lemma SignedOfUnsigned(u: string, m: nat)
    requires ParseMagnitude(u) == Some(m)
    requires '0' <= u[0] <= '9'
    ensures ParseSigned(u) == Some(m)
  {
  }

  /** White space in front of the text does not change what `parseInt` reads. */
  lemma ParseIntSkipsWhiteSpace(c: char, s: string)
    requires IsWhiteSpace(c)
    ensures ParseInt([c] + s) == ParseInt(s)
  {
  }
}

=== FILE: page.dfy ===
/** The ticket page's state and its event handlers, each a transition from the
    current state and the way the server call settled to the next state. */
module TicketPage {
  import opened Wrappers
  import opened JsValues
  import opened Tickets

  datatype FormData = FormData(title: string, description: string, userId: string)

  const EmptyForm := FormData("", "", "")

  /** Every `useState` of the page. */
  datatype PageState = PageState(
    tickets: seq<Ticket>,
    loading: bool,
    error: Option<string>,
    isModalOpen: bool,
    submitting: bool,
    formError: Option<string>,
    deleteConfirmOpen: bool,
    ticketToDelete: Option<int>,
    deleting: bool,
    updatingStatus: Option<int>,
    formData: FormData)

  /** The state on first render, before the initial fetch settles. */
  const Initial := PageState([], true, None, false, false, None, false, None, false, None, EmptyForm)

  /** How a mutating `fetch` settled, as the handler's try block sees it. */
  datatype Reply =
    | Ok                         // `response.ok`
    | NotOk(error: Option<string>) // not ok; the `error` field of the JSON body
    | Threw(message: Option<string>) // `fetch` or `response.json()` threw; Some for an Error's message

  /** The fallback texts of the handlers' `||` and of their `catch` blocks. */
  const StatusNotOkText := "Failed to update ticket status"
  const StatusThrownText := "Failed to update status"
  const DeleteFailedText := "Failed to delete ticket"
  const CreateFailedText := "Failed to create ticket"
  const FetchFailedText := "Failed to fetch tickets"

  /** The message a failed call leaves: for a response that is not ok, the
      body's `error` if truthy, else the handler's `||` fallback; for a throw,
      the Error's message, else the `catch` block's fallback. */
  function FailureText(reply: Reply, notOkFallback: string, thrownFallback: string): (text: string)
    requires !reply.Ok?
    ensures reply.NotOk? && TruthyText(reply.error) ==> text == reply.error.value
    ensures reply.NotOk? && !TruthyText(reply.error) ==> text == notOkFallback
    ensures reply.Threw? && reply.message.Some? ==> text == reply.message.value
    ensures reply.Threw? && reply.message.None? ==> text == thrownFallback
  {
    match reply
    case NotOk(e) => if TruthyText(e) then e.value else notOkFallback
    case Threw(m) => if m.Some? then m.value else thrownFallback
  }

  // ---------------------------------------------------------------------------
  // Pure list transformations

  /** `prev.map(t => t.ticket_id === id ? { ...t, status } : t)`. */
  function ReplaceStatus(ts: seq<Ticket>, id: int, status: string): (r: seq<Ticket>)
    ensures |r| == |ts|
    ensures forall i :: 0 <= i < |ts| ==>
      r[i] == if ts[i].ticket_id == id then ts[i].(status := status) else ts[i]
  {
    if ts == [] then []
    else [if ts[0].ticket_id == id then ts[0].(status := status) else ts[0]] + ReplaceStatus(ts[1..], id, status)
  }

  /** `prev.filter(t => t.ticket_id !== id)`. */
  function RemoveById(ts: seq<Ticket>, id: int): (r: seq<Ticket>)
    ensures |r| <= |ts|
    ensures forall t :: t in r <==> t in ts && t.ticket_id != id
  {
    if ts == [] then []
    else if ts[0].ticket_id != id then [ts[0]] + RemoveById(ts[1..], id)
    else RemoveById(ts[1..], id)
  }

  /** Filtering keeps the relative order: it distributes over concatenation. */
  lemma {:induction false} RemoveByIdAppend(a: seq<Ticket>, b: seq<Ticket>, id: int)
    ensures RemoveById(a + b, id) == RemoveById(a, id) + RemoveById(b, id)
  {
    if a != [] {
      assert (a + b)[0] == a[0];
      assert (a + b)[1..] == a[1..] + b;
      RemoveByIdAppend(a[1..], b, id);
    } else {
      assert a + b == b;
    }
  }

  /** A list with no ticket of that id is left as it is. */
  lemma {:induction false} RemoveAbsentId(ts: seq<Ticket>, id: int)
    requires forall i :: 0 <= i < |ts| ==> ts[i].ticket_id != id
    ensures RemoveById(ts, id) == ts
  {
    if ts != [] {
      RemoveAbsentId(ts[1..], id);
    }
  }

  /** Setting the same status twice is setting it once. */
  lemma ReplaceStatusIdempotent(ts: seq<Ticket>, id: int, status: string)
    ensures ReplaceStatus(ReplaceStatus(ts, id, status), id, status) == ReplaceStatus(ts, id, status)
  {
  }

  // ---------------------------------------------------------------------------
  // Status change

  /** The synchronous start of `handleStatusChange`: the ticket is marked busy
      and the page error cleared while the request is in flight. */
  function StatusChangeStart(s: PageState, id: int): (r: PageState)
    ensures r.updatingStatus == Some(id) && r.error == None
    ensures r.(updatingStatus := s.updatingStatus, error := s.error) == s
  {
    s.(updatingStatus := Some(id), error := None)
  }

  /** The end of `handleStatusChange` once the PATCH settled. */
  function StatusChangeEnd(s: PageState, id: int, newStatus: string, reply: Reply): (r: PageState)
    ensures r.updatingStatus == None
    ensures reply.Ok? ==> r.tickets == ReplaceStatus(s.tickets, id, newStatus) && r.error == s.error
    ensures !reply.Ok? ==> r.tickets == s.tickets && r.error.Some?
    ensures r.(tickets := s.tickets, error := s.error, updatingStatus := s.updatingStatus) == s
  {
    if reply.Ok? then
      s.(tickets := ReplaceStatus(s.tickets, id, newStatus), updatingStatus := None)
    else
      s.(error := Some(FailureText(reply, StatusNotOkText, StatusThrownText)), updatingStatus := None)
  }

  /** The request body the page sends: `{ ticketId, status: newStatus }`. */
  function StatusRequest(id: int, newStatus: string): (body: (JsValue, JsValue))
  {
    (Num(id), Str(newStatus))
  }

  /** `handleStatusChange`: confirm-then-apply. The list changes only on an ok
      response, and then only the status of the tickets with that id; on any
      failure the list stays and the error is set. The busy mark is cleared on
      both paths. Nothing else in the state changes. */
  function HandleStatusChange(s: PageState, id: int, newStatus: string, reply: Reply): (r: PageState)
    ensures r.updatingStatus == None
    ensures reply.Ok? ==> r.error == None && |r.tickets| == |s.tickets|
    ensures reply.Ok? ==> forall i :: 0 <= i < |s.tickets| ==>
      r.tickets[i] == if s.tickets[i].ticket_id == id then s.tickets[i].(status := newStatus) else s.tickets[i]
    ensures !reply.Ok? ==> r.tickets == s.tickets
    ensures reply.NotOk? ==>
      r.error == Some(if TruthyText(reply.error) then reply.error.value else StatusNotOkText)
    ensures reply.Threw? ==>
      r.error == Some(if reply.message.Some? then reply.message.value else StatusThrownText)
    ensures r.(tickets := s.tickets, error := s.error, updatingStatus := s.updatingStatus) == s
  {
    StatusChangeEnd(StatusChangeStart(s, id), id, newStatus, reply)
  }

  // ---------------------------------------------------------------------------
  // Two-step delete

  /** `handleDeleteClick`: only stages the target and opens the confirmation. */
  function HandleDeleteClick(s: PageState, id: int): (r: PageState)
    ensures r.ticketToDelete == Some(id) && r.deleteConfirmOpen
    ensures r.(ticketToDelete := s.ticketToDelete, deleteConfirmOpen := s.deleteConfirmOpen) == s
  {
    s.(ticketToDelete := Some(id), deleteConfirmOpen := true)
  }

  /** Whether `if (!ticketToDelete) return` lets the confirmation through:
      neither null nor 0. */
  predicate Staged(s: PageState) {
    s.ticketToDelete.Some? && s.ticketToDelete.value != 0
  }

  /** The query the DELETE request carries: `?ticketId=${ticketToDelete}`. */
  function DeleteQuery(id: int): (q: seq<(string, string)>)
    ensures |q| == 1 && q[0].0 == "ticketId" && q[0].1 != ""
  {
    [("ticketId", NumberToString(id))]
  }

  /** The synchronous start of a confirmed delete. */
  function DeleteConfirmStart(s: PageState): (r: PageState)
    ensures r.deleting && r.error == None
    ensures r.(deleting := s.deleting, error := s.error) == s
  {
    s.(deleting := true, error := None)
  }

  /** The end of a confirmed delete of `id` once the DELETE settled. */
  function DeleteConfirmEnd(s: PageState, id: int, reply: Reply): (r: PageState)
    ensures !r.deleting
  {
    if reply.Ok? then
      s.(tickets := RemoveById(s.tickets, id), deleteConfirmOpen := false, ticketToDelete := None, deleting := false)
    else
      s.(error := Some(FailureText(reply, DeleteFailedText, DeleteFailedText)), deleting := false)
  }

  /** `handleDeleteConfirm`: nothing at all without a staged target; on an ok
      response the staged id's tickets leave the list, the dialog closes and
      the target is cleared; on failure the list and the target stay and the
      error is set. Either way the busy flag ends cleared. */
  function HandleDeleteConfirm(s: PageState, reply: Reply): (r: PageState)
    ensures !Staged(s) ==> r == s
    ensures Staged(s) ==> !r.deleting
    ensures Staged(s) && reply.Ok? ==>
      && r.tickets == RemoveById(s.tickets, s.ticketToDelete.value)
      && !r.deleteConfirmOpen && r.ticketToDelete == None && r.error == None
    ensures Staged(s) && !reply.Ok? ==>
      r.tickets == s.tickets && r.ticketToDelete == s.ticketToDelete
      && r.deleteConfirmOpen == s.deleteConfirmOpen
    ensures Staged(s) && reply.NotOk? ==>
      r.error == Some(if TruthyText(reply.error) then reply.error.value else DeleteFailedText)
    ensures Staged(s) && reply.Threw? ==>
      r.error == Some(if reply.message.Some? then reply.message.value else DeleteFailedText)
    ensures r.(tickets := s.tickets, error := s.error, deleting := s.deleting,
               deleteConfirmOpen := s.deleteConfirmOpen, ticketToDelete := s.ticketToDelete) == s
  {
    if !Staged(s) then s
    else DeleteConfirmEnd(DeleteConfirmStart(s), s.ticketToDelete.value, reply)
  }

  /** `handleDeleteModalClose`: clears the dialog, its target and the error. */
  function HandleDeleteModalClose(s: PageState): (r: PageState)
    ensures !r.deleteConfirmOpen && r.ticketToDelete == None && r.error == None
    ensures r.(deleteConfirmOpen := s.deleteConfirmOpen, ticketToDelete := s.ticketToDelete, error := s.error) == s
  {
    s.(deleteConfirmOpen := false, ticketToDelete := None, error := None)
  }

  // ---------------------------------------------------------------------------
  // Create form

  /** `parseInt(formData.userId) || 1`: NaN and 0 fall back to user 1. */
  function SubmittedUserId(userId: string): (r: int)
    ensures r != 0
    ensures (ParseInt(userId).Some? && ParseInt(userId).value != 0) ==> r == ParseInt(userId).value
    ensures (ParseInt(userId).None? || ParseInt(userId).value == 0) ==> r == 1
  {
    match ParseInt(userId)
    case Some(n) => if n != 0 then n else 1
    case None => 1
  }

  /** The JSON fields the page posts: `title`, `description`, `userId`. */
  function SubmitRequest(f: FormData): (body: (JsValue, JsValue, JsValue))
    ensures body.2.Num? && Truthy(body.2)
  {
    (Str(f.title), Str(f.description), Num(SubmittedUserId(f.userId)))
  }

  /** `handleSubmit` once the POST settled. On success the form empties, its
      error clears and the modal closes (the list itself is refreshed by a
      later fetch); on failure the modal keeps its state and shows the error.
      The busy flag ends cleared either way and the list is not touched. */
  function HandleSubmit(s: PageState, reply: Reply): (r: PageState)
    ensures !r.submitting
    ensures reply.Ok? ==> r.formData == EmptyForm && r.formError == None && !r.isModalOpen
    ensures !reply.Ok? ==> r.formData == s.formData && r.isModalOpen == s.isModalOpen
    ensures reply.NotOk? ==>
      r.formError == Some(if TruthyText(reply.error) then reply.error.value else CreateFailedText)
    ensures reply.Threw? ==>
      r.formError == Some(if reply.message.Some? then reply.message.value else CreateFailedText)
    ensures r.(submitting := s.submitting, formError := s.formError, formData := s.formData,
               isModalOpen := s.isModalOpen) == s
  {
    var busy := s.(submitting := true, formError := None);
    if reply.Ok? then
      busy.(formData := EmptyForm, formError := None, isModalOpen := false, submitting := false)
    else
      busy.(formError := Some(FailureText(reply, CreateFailedText, CreateFailedText)), submitting := false)
  }

  /** `handleModalClose`: closes the form and forgets what was typed. */
  function HandleModalClose(s: PageState): (r: PageState)
    ensures !r.isModalOpen && r.formData == EmptyForm && r.formError == None
    ensures r.(isModalOpen := s.isModalOpen, formData := s.formData, formError := s.formError) == s
  {
    s.(isModalOpen := false, formData := EmptyForm, formError := None)
  }

  /** How `fetchTickets` settled. */
  datatype FetchReply =
    | Loaded(data: seq<Ticket>)
    | FetchNotOk
    | FetchThrew(message: string)

  /** `fetchTickets` once settled: the list is replaced wholesale, or the error
      set; loading ends either way. */
  function FetchTicketsEnd(s: PageState, reply: FetchReply): (r: PageState)
    ensures !r.loading
    ensures reply.Loaded? ==> r.tickets == reply.data && r.error == s.error
    ensures !reply.Loaded? ==> r.tickets == s.tickets
    ensures reply.FetchNotOk? ==> r.error == Some(FetchFailedText)
    ensures reply.FetchThrew? ==> r.error == Some(reply.message)
    ensures r.(tickets := s.tickets, error := s.error, loading := s.loading) == s
  {
    match reply
    case Loaded(data) => s.(tickets := data, loading := false)
    case FetchNotOk => s.(error := Some(FetchFailedText), loading := false)
    case FetchThrew(m) => s.(error := Some(m), loading := false)
  }

  // ---------------------------------------------------------------------------
  // Which screen renders

  datatype View = Spinner | ErrorScreen(message: string) | Main

  /** The render branches: the spinner while loading; otherwise the full-page
      error exactly when a non-empty error is set and no modal is open;
      otherwise the list. */
  function SelectView(s: PageState): (v: View)
    ensures v == Spinner <==> s.loading
    ensures v.ErrorScreen? <==> !s.loading && TruthyText(s.error) && !s.isModalOpen && !s.deleteConfirmOpen
    ensures v.ErrorScreen? ==> Some(v.message) == s.error
  {
    if s.loading then Spinner
    else if TruthyText(s.error) && !s.isModalOpen && !s.deleteConfirmOpen then ErrorScreen(s.error.value)
    else Main
  }

  /** A delete that fails inside the open confirmation dialog leaves the page
      showing the dialog, whose own error line carries the message, rather than
      replacing it with the full-page error. */
  lemma FailedDeleteStaysInDialog(s: PageState, reply: Reply)
    requires Staged(s) && s.deleteConfirmOpen && !s.loading && !reply.Ok?
    ensures SelectView(HandleDeleteConfirm(s, reply)) == Main
    ensures HandleDeleteConfirm(s, reply).error.Some?
  {
  }

  /** A status change that fails while no modal is open replaces the page with
      the full-page error, provided the message is not empty. */
  lemma FailedStatusChangeShowsError(s: PageState, id: int, newStatus: string, reply: Reply)
    requires !s.loading && !s.isModalOpen && !s.deleteConfirmOpen
    requires reply.NotOk? && TruthyText(reply.error)
    ensures SelectView(HandleStatusChange(s, id, newStatus, reply)) == ErrorScreen(reply.error.value)
  {
  }

  /** Closing the delete dialog never leads to the full-page error. */
  lemma DeleteModalCloseHidesError(s: PageState)
    ensures !SelectView(HandleDeleteModalClose(s)).ErrorScreen?
  {
  }

  /** Staging a ticket and confirming with an ok reply removes that id from the
      list, keeping the others in order, and leaves no dialog open. A ticket
      whose id is 0 can be staged but never confirmed: the dialog stays. */
  lemma ClickThenConfirm(s: PageState, id: int, reply: Reply)
    ensures id != 0 && reply.Ok? ==>
      var r := HandleDeleteConfirm(HandleDeleteClick(s, id), reply);
      && r.tickets == RemoveById(s.tickets, id)
      && !r.deleteConfirmOpen && r.ticketToDelete == None && !r.deleting
    ensures id == 0 ==>
      HandleDeleteConfirm(HandleDeleteClick(s, id), reply) == HandleDeleteClick(s, id)
  {
  }

  /** Staging a ticket and cancelling is the same as only cancelling. */
  lemma ClickThenCancel(s: PageState, id: int)
    ensures HandleDeleteModalClose(HandleDeleteClick(s, id)) == HandleDeleteModalClose(s)
  {
  }

  /** Closing the form twice is closing it once, and closing it after a
      successful submit changes nothing. */
  lemma ModalCloseSettles(s: PageState)
    ensures HandleModalClose(HandleModalClose(s)) == HandleModalClose(s)
    ensures HandleModalClose(HandleSubmit(s, Ok)) == HandleSubmit(s, Ok)
  {
  }

  /** Closing the create form uncovers a page error that was set while it was
      open, unless the delete dialog is open too. */
  lemma ClosingFormRevealsError(s: PageState)
    requires !s.loading && TruthyText(s.error) && !s.deleteConfirmOpen
    ensures s.isModalOpen ==> SelectView(s) == Main
    ensures SelectView(HandleModalClose(s)) == ErrorScreen(s.error.value)
  {
  }

  /** Only the fetch ends the spinner: no event handler shows or hides it. */
  lemma HandlersKeepSpinner(s: PageState, id: int, status: string, reply: Reply)
    ensures SelectView(HandleStatusChange(s, id, status, reply)).Spinner? <==> s.loading
    ensures SelectView(HandleDeleteClick(s, id)).Spinner? <==> s.loading
    ensures SelectView(HandleDeleteConfirm(s, reply)).Spinner? <==> s.loading
    ensures SelectView(HandleDeleteModalClose(s)).Spinner? <==> s.loading
    ensures SelectView(HandleSubmit(s, reply)).Spinner? <==> s.loading
    ensures SelectView(HandleModalClose(s)).Spinner? <==> s.loading
  {
  }
}

=== FILE: reconcile.dfy ===
/** The page's ticket list against the server's table: the request each page
    handler sends, the route that answers it, and the list the page keeps. The
    lemmas show the page's list stays the listing the server would return for
    the same database order, after every status change and confirmed delete,
    whether the call succeeds or fails. */
module Reconcile {
  import opened Wrappers
  import opened JsValues
  import opened Tickets
  import opened TicketRoute
  import opened TicketPage

  /** What the page's `fetch` makes of a route response: `response.ok` for the
      2xx statuses, otherwise the `error` field of the JSON body. */
  function ReplyOf(resp: Response): (r: Reply)
    ensures r.Ok? <==> 200 <= resp.status <= 299
    ensures resp.body.Failure? && !r.Ok? ==> r == NotOk(Some(resp.body.error))
  {
    if 200 <= resp.status <= 299 then Ok
    else match resp.body
      case Failure(e) => NotOk(Some(e))
      case _ => NotOk(None)
  }

  /** The page's list mirrors the table when it is the table's listing. */
  predicate Mirrors(tickets: seq<Ticket>, store: Store, order: seq<int>) {
    tickets == Listing(store, order)
  }

  /** The first render's `fetchTickets` against GET: when the database answers,
      the page's list becomes the table's listing, which is where the mirror
      the lemmas below assume comes from, and the main view shows; otherwise
      the list stays empty and the full-page error shows "Failed to fetch
      tickets". */
  lemma InitialFetchMirrors(db: Db, order: seq<int>, store: Store)
    ensures var x := Get(db, order, store);
            var s := FetchTicketsEnd(Initial, if ReplyOf(x.response).Ok? then Loaded(x.response.body.tickets) else FetchNotOk);
            && (db.connects && db.executes ==> Mirrors(s.tickets, store, order) && SelectView(s) == Main)
            && (!(db.connects && db.executes) ==> s.tickets == [] && SelectView(s) == ErrorScreen(FetchFailedText))
  {
  }

  /** The listing after an UPDATE is the earlier listing with the page's
      status replacement applied: both sides agree on every ticket, in order. */
  lemma {:induction false} ListingAfterUpdate(store: Store, order: seq<int>, id: int, status: string)
    ensures Listing(UpdateStatusRow(store, id, status), order) == ReplaceStatus(Listing(store, order), id, status)
  {
    if order != [] {
      var after := UpdateStatusRow(store, id, status);
      ListingCons(store, order);
      ListingCons(after, order);
      ListingAfterUpdate(store, order[1..], id, status);
      var k := order[0];
      var before := Listing(store, order);
      if k in store {
        var t := FromRow(SelectRow(k, store[k]));
        assert before == [t] + Listing(store, order[1..]);
        assert before[1..] == Listing(store, order[1..]);
        assert before[0] == t;
      } else {
        assert before == Listing(store, order[1..]);
      }
    }
  }

  /** The listing after a DELETE is the earlier listing with the page's filter
      applied. */
  lemma {:induction false} ListingAfterDelete(store: Store, order: seq<int>, id: int)
    ensures Listing(DeleteRow(store, id), order) == RemoveById(Listing(store, order), id)
  {
    if order != [] {
      var after := DeleteRow(store, id);
      ListingCons(store, order);
      ListingCons(after, order);
      ListingAfterDelete(store, order[1..], id);
      var k := order[0];
      var before := Listing(store, order);
      if k in store {
        var t := FromRow(SelectRow(k, store[k]));
        assert before == [t] + Listing(store, order[1..]);
        RemoveByIdAppend([t], Listing(store, order[1..]), id);
        assert RemoveById([t], id) == if k == id then [] else [t] by {
          assert [t][1..] == [];
        }
      }
    }
  }

  /** The DELETE request the page sends for a staged id names exactly that id:
      the server reads back `parseInt(String(id)) === id`. */
  lemma DeleteQueryNamesId(id: int)
    ensures SearchParam(DeleteQuery(id), "ticketId") == Some(NumberToString(id))
    ensures TruthyText(SearchParam(DeleteQuery(id), "ticketId"))
    ensures ParseInt(NumberToString(id)) == Some(id)
  {
    ParseIntOfNumberToString(id, []);
    assert NumberToString(id) + [] == NumberToString(id);
  }

  /** A status change keeps the page mirroring the table: on a 200 both apply
      the same replacement, on a 400 or 500 neither changes. */
  lemma StatusChangeKeepsMirror(s: PageState, id: int, newStatus: string, db: Db, order: seq<int>, store: Store)
    requires Mirrors(s.tickets, store, order)
    ensures var body := StatusRequest(id, newStatus);
      var x := Patch(Some(PatchBody(body.0, body.1)), db, store);
      Mirrors(HandleStatusChange(s, id, newStatus, ReplyOf(x.response)).tickets, x.store, order)
  {
    var x := Patch(Some(PatchBody(Num(id), Str(newStatus))), db, store);
    if x.response.status == 200 {
      ListingAfterUpdate(store, order, id, newStatus);
    }
  }

  /** The page's PATCH is refused with 400 exactly when the ticket id is 0 or
      the status is empty, and the page then shows the server's message. */
  lemma StatusChangeRefusal(s: PageState, id: int, newStatus: string, db: Db, store: Store)
    ensures var body := StatusRequest(id, newStatus);
      var x := Patch(Some(PatchBody(body.0, body.1)), db, store);
      (x.response.status == 400 <==> id == 0 || newStatus == "")
      && (x.response.status == 400 ==>
          HandleStatusChange(s, id, newStatus, ReplyOf(x.response)).error == Some(PatchMissing))
  {
  }

  /** A confirmed delete keeps the page mirroring the table: on a 200 the
      server drops the row and the page the same tickets, on a 500 neither
      changes. The page's request never meets the 400 branch. */
  lemma DeleteConfirmKeepsMirror(s: PageState, db: Db, order: seq<int>, store: Store)
    requires Staged(s)
    requires Mirrors(s.tickets, store, order)
    ensures var x := Delete(Some(DeleteQuery(s.ticketToDelete.value)), db, store);
      && x.response.status != 400
      && (x.response.status == 200 <==> db.connects && db.executes)
      && Mirrors(HandleDeleteConfirm(s, ReplyOf(x.response)).tickets, x.store, order)
  {
    var id := s.ticketToDelete.value;
    DeleteQueryNamesId(id);
    var x := Delete(Some(DeleteQuery(id)), db, store);
    if x.response.status == 200 {
      assert x.store == DeleteRow(store, id);
      ListingAfterDelete(store, order, id);
    }
  }

  /** The page's create request succeeds exactly when the database connects,
      runs the procedure and assigns an unused id; the new row then holds the
      form's title and description and an owner that is never 0. */
  lemma SubmitCreatesTicket(f: FormData, db: Db, created: Assigned, store: Store)
    ensures var body := SubmitRequest(f);
      var x := Post(Some(PostBody(body.0, body.1, body.2)), db, created, store);
      && (x.response.status == 201 <==> db.connects && db.executes && created.id !in store)
      && (x.response.status == 201 ==>
          x.store[created.id] == TicketRecord(f.title, f.description, created.status, Some(SubmittedUserId(f.userId))))
  {
    PostOfTextAndNumber(f.title, f.description, SubmittedUserId(f.userId), db, created, store);
  }

  /** A create body of two strings and a number always binds, so it succeeds
      exactly when the database does and stores those values. */
  lemma PostOfTextAndNumber(title: string, description: string, userId: int, db: Db, created: Assigned, store: Store)
    ensures var x := Post(Some(PostBody(Str(title), Str(description), Num(userId))), db, created, store);
      && (x.response.status == 201 <==> db.connects && db.executes && created.id !in store)
      && (x.response.status == 201 ==>
          x.store[created.id] == TicketRecord(title, description, created.status, Some(userId)))
  {
  }

  /** The form closes after a submit exactly when the server created the
      ticket (or it was closed already); otherwise it shows the server's error. */
  lemma SubmitClosesFormOnCreate(s: PageState, db: Db, created: Assigned, store: Store)
    ensures var body := SubmitRequest(s.formData);
      var x := Post(Some(PostBody(body.0, body.1, body.2)), db, created, store);
      var r := HandleSubmit(s, ReplyOf(x.response));
      && (!r.isModalOpen <==> x.response.status == 201 || !s.isModalOpen)
      && (x.response.status != 201 ==> r.formError == Some(PostError))
  {
    var body := SubmitRequest(s.formData);
    var x := Post(Some(PostBody(body.0, body.1, body.2)), db, created, store);
    assert x.response.status == 201 || x.response.body == Failure(PostError);
  }
}

=== FILE: route.dfy ===
/** The four request handlers of the tickets endpoint, each a pure function from
    a decoded request, the database's behaviour on this call and the table to a
    response, the new table and the connection events of the call. */
module TicketRoute {
  import opened Wrappers
  import opened JsValues
  import opened Tickets

  /** What happened to the per-request connection: it was acquired, a statement
      was sent on it, it was released. */
  datatype Event = Acquire | Execute | Release

  datatype Body =
    | Message(message: string)
    | Failure(error: string)
    | Listed(tickets: seq<Ticket>)

  datatype Response = Response(status: int, body: Body)

  /** One handled request: what the client gets, the table afterwards, and the
      connection events in the order they happened. */
  datatype Exchange = Exchange(response: Response, store: Store, trace: seq<Event>)

  /** The database's behaviour on one call, which the handlers cannot see
      beforehand: whether `getConnection` succeeds and whether the statement,
      once bound, runs (a dropped link, a constraint, any server-side error). */
  datatype Db = Db(connects: bool, executes: bool)

  const PostCreated := "Ticket creado"
  const PostError := "Error"
  const GetError := "DB error"
  const PatchMissing := "Ticket ID and status are required"
  const PatchDone := "Ticket status updated"
  const PatchError := "Error updating ticket"
  const DeleteMissing := "Ticket ID is required"
  const DeleteDone := "Ticket deleted"
  const DeleteError := "Error deleting ticket"

  /** The handler's `finally`: the connection, if one was acquired, is released
      exactly once, after the statement; none is released otherwise. */
  predicate ReleasedOnce(trace: seq<Event>) {
    || trace == []
    || (&& |trace| >= 2
        && trace[0] == Acquire
        && trace[|trace| - 1] == Release
        && forall i :: 0 < i < |trace| - 1 ==> trace[i] == Execute)
  }

  /** A response sent before any connection was acquired. */
  function Early(status: int, body: Body, store: Store): (x: Exchange)
    ensures x.trace == [] && ReleasedOnce(x.trace)
  {
    Exchange(Response(status, body), store, [])
  }

  /** A response sent from a try block that acquired the connection and sent
      its one statement; the `finally` then releases it. */
  function Released(status: int, body: Body, store: Store): (x: Exchange)
    ensures x.trace != [] && ReleasedOnce(x.trace)
  {
    Exchange(Response(status, body), store, [Acquire, Execute, Release])
  }

  // ---------------------------------------------------------------------------
  // Binding JavaScript values to statement parameters

  /** A text bind: a string as it is, `null`/`undefined` as NULL. Other values
      are refused by the driver. */
  function BindText(v: JsValue): (bound: Option<string>)
    ensures bound.Some? <==> v.Str? || v.Undefined? || v.Null?
  {
    match v
    case Str(s) => Some(s)
    case Undefined => Some("")
    case Null => Some("")
    case _ => None
  }

  /** A bind of the owner column: a number, or NULL. */
  function BindOwner(v: JsValue): (bound: Option<Option<int>>)
    ensures bound.Some? <==> v.Num? || v.Undefined? || v.Null?
  {
    match v
    case Num(n) => Some(Some(n))
    case Undefined => Some(None)
    case Null => Some(None)
    case _ => None
  }

  /** A numeric key bind; NaN and non-numbers are refused. */
  function BindKey(v: JsValue): (bound: Option<int>)
    ensures bound.Some? <==> v.Num?
  {
    match v
    case Num(n) => Some(n)
    case _ => None
  }

  // ---------------------------------------------------------------------------
  // POST: create a ticket through the `create_ticket` procedure

  datatype PostBody = PostBody(title: JsValue, description: JsValue, userId: JsValue)

  /** What the procedure's own logic decides, which the handler cannot see:
      the id it assigns and the status a new ticket starts with. */
  datatype Assigned = Assigned(id: int, status: string)

  /** `POST`. `req` is None when `req.json()` throws. There is no presence check:
      the body goes to the procedure as it is. An assigned id already in the
      table violates the key and fails the statement. */
  function Post(req: Option<PostBody>, db: Db, created: Assigned, store: Store): (x: Exchange)
    ensures x.response.status in {201, 500}
    ensures ReleasedOnce(x.trace)
    ensures x.trace != [] <==> req.Some? && db.connects
    ensures x.response.status == 500 ==> x.response.body == Failure(PostError) && x.store == store
    ensures x.response.status == 201 ==>
      && req.Some?
      && x.response.body == Message(PostCreated)
      && created.id !in store
      && x.store.Keys == store.Keys + {created.id}
      && (forall k :: k in store ==> x.store[k] == store[k])
      && x.store[created.id].status == created.status
      && Some(x.store[created.id].title) == BindText(req.value.title)
      && Some(x.store[created.id].description) == BindText(req.value.description)
      && Some(x.store[created.id].owner) == BindOwner(req.value.userId)
    ensures x.response.status == 201 <==>
      && req.Some? && db.connects && db.executes && created.id !in store
      && BindText(req.value.title).Some? && BindText(req.value.description).Some?
      && BindOwner(req.value.userId).Some?
  {
    match req
    case None => Early(500, Failure(PostError), store)
    case Some(b) =>
      if !db.connects then Early(500, Failure(PostError), store)
      else
        var title, description, owner := BindText(b.title), BindText(b.description), BindOwner(b.userId);
        if title.Some? && description.Some? && owner.Some? && db.executes && created.id !in store then
          var row := TicketRecord(title.value, description.value, created.status, owner.value);
          Released(201, Message(PostCreated), store[created.id := row])
        else
          Released(500, Failure(PostError), store)
  }

  // ---------------------------------------------------------------------------
  // GET: list every ticket

  /** `GET`. The rows come back in the database's order `order`; each
      description is cut to its first 4000 characters by the query itself. */
  function Get(db: Db, order: seq<int>, store: Store): (x: Exchange)
    ensures x.store == store
    ensures x.response.status in {200, 500}
    ensures ReleasedOnce(x.trace)
    ensures x.trace != [] <==> db.connects
    ensures x.response.status == 500 ==> x.response.body == Failure(GetError)
    ensures x.response.status == 200 ==> x.response.body == Listed(Listing(store, order))
    ensures x.response.status == 200 ==> forall t :: t in x.response.body.tickets ==>
      t.ticket_id in store && |t.description| <= DescriptionLimit
    ensures x.response.status == 200 <==> db.connects && db.executes
    ensures x.response.status == 200 && Walks(store, order) ==>
      var ts := x.response.body.tickets;
      && |ts| == |store|
      && (forall k :: k in store ==> FromRow(SelectRow(k, store[k])) in ts)
      && (forall i, j :: 0 <= i < j < |ts| ==> ts[i].ticket_id != ts[j].ticket_id)
  {
    ListingShowsTable(store, order);
    if !db.connects then Early(500, Failure(GetError), store)
    else if !db.executes then Released(500, Failure(GetError), store)
    else Released(200, Listed(Listing(store, order)), store)
  }

  // ---------------------------------------------------------------------------
  // PATCH: set a ticket's status

  datatype PatchBody = PatchBody(ticketId: JsValue, status: JsValue)

  /** `PATCH`. A falsy `ticketId` or `status` (absent, null, 0, NaN, "", false)
      is a 400 before any connection is acquired; otherwise the status string is
      written verbatim into the row with that id, if there is one. */
  function Patch(req: Option<PatchBody>, db: Db, store: Store): (x: Exchange)
    ensures x.response.status in {200, 400, 500}
    ensures ReleasedOnce(x.trace)
    ensures req.Some? ==> (x.response.status == 400 <==> !Truthy(req.value.ticketId) || !Truthy(req.value.status))
    ensures x.response.status == 400 ==>
      x.response.body == Failure(PatchMissing) && x.store == store && x.trace == []
    ensures x.response.status == 500 ==> x.response.body == Failure(PatchError) && x.store == store
    ensures x.response.status == 200 ==>
      && x.response.body == Message(PatchDone)
      && req.Some?
      && req.value.ticketId.Num? && req.value.status.Str?
      && x.store == UpdateStatusRow(store, req.value.ticketId.n, req.value.status.s)
    ensures x.response.status == 200 ==> db.connects && db.executes
    ensures x.trace != [] <==>
      req.Some? && Truthy(req.value.ticketId) && Truthy(req.value.status) && db.connects
    ensures req.None? ==> x.response == Response(500, Failure(PatchError)) && x.trace == []
    ensures && req.Some? && req.value.ticketId.Num? && req.value.ticketId.n != 0
            && req.value.status.Str? && req.value.status.s != ""
            && db.connects && db.executes
            ==> x.response.status == 200
  {
    match req
    case None => Early(500, Failure(PatchError), store)
    case Some(b) =>
      if !Truthy(b.ticketId) || !Truthy(b.status) then Early(400, Failure(PatchMissing), store)
      else if !db.connects then Early(500, Failure(PatchError), store)
      else
        var id, status := BindKey(b.ticketId), BindText(b.status);
        if id.Some? && status.Some? && db.executes then
          Released(200, Message(PatchDone), UpdateStatusRow(store, id.value, status.value))
        else
          Released(500, Failure(PatchError), store)
  }

  // ---------------------------------------------------------------------------
  // DELETE: remove a ticket named by a query parameter

  /** A decoded query string: name/value pairs in order. */
  type Query = seq<(string, string)>

  /** `searchParams.get(name)`: the value of the first pair with that name. */
  function SearchParam(q: Query, name: string): (r: Option<string>)
    ensures r.Some? ==> (name, r.value) in q
    ensures r.None? <==> forall i :: 0 <= i < |q| ==> q[i].0 != name
    ensures forall i :: 0 <= i < |q| && q[i].0 == name && (forall j :: 0 <= j < i ==> q[j].0 != name) ==>
      r == Some(q[i].1)
  {
    if q == [] then None
    else if q[0].0 == name then Some(q[0].1)
    else SearchParam(q[1..], name)
  }

  /** The id a DELETE request names: `parseInt` of a non-empty `ticketId`
      query parameter, None when the URL did not parse, the parameter is
      missing or empty, or its text is not a number. */
  function RequestedId(url: Option<Query>): (id: Option<int>)
    ensures id.Some? ==> url.Some? && TruthyText(SearchParam(url.value, "ticketId"))
    ensures url.Some? && TruthyText(SearchParam(url.value, "ticketId")) ==>
      id == ParseInt(SearchParam(url.value, "ticketId").value)
  {
    match url
    case None => None
    case Some(q) =>
      var ticketId := SearchParam(q, "ticketId");
      if TruthyText(ticketId) then ParseInt(ticketId.value) else None
  }

  /** `DELETE`. `url` is None when `new URL(req.url)` throws. A missing or empty
      `ticketId` is a 400 before any connection is acquired; otherwise the row
      with id `parseInt(ticketId)` is removed if there is one. A NaN id is not a
      valid numeric bind, so that statement fails. */
  function Delete(url: Option<Query>, db: Db, store: Store): (x: Exchange)
    ensures x.response.status in {200, 400, 500}
    ensures ReleasedOnce(x.trace)
    ensures url.Some? ==> (x.response.status == 400 <==> !TruthyText(SearchParam(url.value, "ticketId")))
    ensures x.response.status == 400 ==>
      x.response.body == Failure(DeleteMissing) && x.store == store && x.trace == []
    ensures x.response.status == 500 ==> x.response.body == Failure(DeleteError) && x.store == store
    ensures x.response.status == 200 ==>
      && x.response.body == Message(DeleteDone)
      && RequestedId(url).Some?
      && x.store == DeleteRow(store, RequestedId(url).value)
    ensures RequestedId(url).Some? && db.connects && db.executes ==> x.response.status == 200
    ensures x.response.status == 200 ==> db.connects && db.executes
    ensures x.trace != [] <==> url.Some? && TruthyText(SearchParam(url.value, "ticketId")) && db.connects
    ensures url.None? ==> x.response == Response(500, Failure(DeleteError)) && x.trace == []
  {
    match url
    case None => Early(500, Failure(DeleteError), store)
    case Some(q) =>
      var ticketId := SearchParam(q, "ticketId");
      if !TruthyText(ticketId) then Early(400, Failure(DeleteMissing), store)
      else if !db.connects then Early(500, Failure(DeleteError), store)
      else
        match RequestedId(url)
        case Some(id) =>
          if db.executes then Released(200, Message(DeleteDone), DeleteRow(store, id))
          else Released(500, Failure(DeleteError), store)
        case None => Released(500, Failure(DeleteError), store)
  }

  // ---------------------------------------------------------------------------
  // Properties across calls

  /** Deleting is idempotent: repeating a DELETE that succeeded succeeds again
      (given a working database) and changes nothing more. */
  lemma DeleteIdempotent(url: Option<Query>, db: Db, store: Store)
    ensures var once := Delete(url, db, store);
      var twice := Delete(url, db, once.store);
      once.response.status == 200 ==> twice.response.status == 200 && twice.store == once.store
  {
  }

  /** After a DELETE succeeds, no listing contains the deleted id. */
  lemma DeletedNeverListed(url: Option<Query>, db: Db, order: seq<int>, store: Store)
    ensures var once := Delete(url, db, store);
      once.response.status == 200 ==>
        var id := RequestedId(url).value;
        forall t :: t in Listing(once.store, order) ==> t.ticket_id != id
  {
    ListingMatchesStore(Delete(url, db, store).store, order);
  }

  /** After a PATCH succeeds, every listing shows the ticket with the new status
      (whatever string it was, as no set of statuses is enforced). */
  lemma PatchedStatusListed(req: Option<PatchBody>, db: Db, order: seq<int>, store: Store)
    requires Patch(req, db, store).response.status == 200
    ensures forall t :: t in Listing(Patch(req, db, store).store, order) && t.ticket_id == req.value.ticketId.n ==>
      t.status == req.value.status.s
  {
    var after := Patch(req, db, store).store;
    ListingMatchesStore(after, order);
  }

  /** A PATCH for an id that is not in the table answers 200 all the same, and
      leaves the table, hence every listing, as it was. */
  lemma PatchMissingIdIsNoOp(id: int, status: string, db: Db, store: Store)
    requires id != 0 && status != "" && id !in store
    requires db.connects && db.executes
    ensures var x := Patch(Some(PatchBody(Num(id), Str(status))), db, store);
      x.response == Response(200, Message(PatchDone)) && x.store == store
  {
  }

  const Jam := TicketRecord("Printer jam", "Printer on 3rd floor won't print", "OPEN", Some(7))

  /** Creating the example ticket under a free id lists it with status OPEN. */
  lemma CreateThenList(store: Store, id: int, order: seq<int>)
    requires id !in store && id in order
    ensures var x := Post(Some(PostBody(Str(Jam.title), Str(Jam.description), Num(7))), Db(true, true), Assigned(id, "OPEN"), store);
      && x.response.status == 201
      && x.store == store[id := Jam]
      && Ticket(id, Jam.title, Jam.description, "OPEN") in Listing(x.store, order)
  {
    ListedWhenPresent(store[id := Jam], order, id);
  }

  /** Moving a listed ticket to IN PROGRESS lists it with that status. */
  lemma PatchThenList(store: Store, id: int, order: seq<int>)
    requires id in store && id in order && id != 0
    ensures var x := Patch(Some(PatchBody(Num(id), Str("IN PROGRESS"))), Db(true, true), store);
      && x.response.status == 200
      && x.store == store[id := store[id].(status := "IN PROGRESS")]
      && FromRow(SelectRow(id, store[id].(status := "IN PROGRESS"))) in Listing(x.store, order)
  {
    ListedWhenPresent(store[id := store[id].(status := "IN PROGRESS")], order, id);
  }

  /** A DELETE whose query names the id in decimal removes exactly that id,
      also when text follows that cannot continue the number (`12abc`
      deletes ticket 12). */
  lemma DeleteByDecimalId(store: Store, id: int, rest: string)
    requires StopsNumber(id, rest)
    ensures Delete(Some([("ticketId", NumberToString(id) + rest)]), Db(true, true), store)
      == Released(200, Message(DeleteDone), DeleteRow(store, id))
  {
    var q := [("ticketId", NumberToString(id) + rest)];
    assert SearchParam(q, "ticketId") == Some(NumberToString(id) + rest);
    ParseIntOfNumberToString(id, rest);
  }

  /** `?ticketId=12abc` deletes ticket 12: `parseInt` stops at the letters. */
  lemma DeleteReadsLeadingDigits(store: Store)
    ensures Delete(Some([("ticketId", "12abc")]), Db(true, true), store)
      == Released(200, Message(DeleteDone), DeleteRow(store, 12))
  {
    assert NatToDecimal(12) == NatToDecimal(1) + [DecimalDigit(2)];
    assert NumberToString(12) + "abc" == "12abc";
    DeleteByDecimalId(store, 12, "abc");
  }

  /** A PATCH naming a stored ticket writes any non-empty status string into
      that row verbatim and changes nothing else. */
  lemma PatchWritesStatus(store: Store, id: int, status: string)
    requires id in store && id != 0 && status != ""
    ensures Patch(Some(PatchBody(Num(id), Str(status))), Db(true, true), store)
      == Released(200, Message(PatchDone), store[id := store[id].(status := status)])
  {
  }

  /** Deleting a ticket by its decimal id removes it from every listing, and
      deleting it again answers 200 and changes nothing. */
  lemma DeleteTwice(store: Store, id: int, order: seq<int>)
    ensures var q := Some([("ticketId", NumberToString(id))]);
      var x := Delete(q, Db(true, true), store);
      var y := Delete(q, Db(true, true), x.store);
      && x.response.status == 200
      && x.store == DeleteRow(store, id)
      && (forall t :: t in Listing(x.store, order) ==> t.ticket_id != id)
      && y.response == Response(200, Message(DeleteDone)) && y.store == x.store
  {
    var after := DeleteRow(store, id);
    DeleteByDecimalText(store, id);
    DeleteByDecimalText(after, id);
    assert DeleteRow(after, id) == after;
    ListingMatchesStore(after, order);
  }

  /** The query the page sends for an id, `ticketId=${id}`, deletes exactly that id. */
  lemma DeleteByDecimalText(store: Store, id: int)
    ensures Delete(Some([("ticketId", NumberToString(id))]), Db(true, true), store)
      == Released(200, Message(DeleteDone), DeleteRow(store, id))
  {
    assert NumberToString(id) + [] == NumberToString(id);
    DeleteByDecimalId(store, id, []);
  }

  /** One ticket's whole life, for any table and any free, non-zero id the
      procedure assigns with status OPEN: created and listed, moved to
      IN PROGRESS and listed so, deleted, and deleted again without error. */
  lemma TicketLifecycle(store: Store, id: int, order: seq<int>)
    requires id !in store && id != 0 && id in order
    ensures var created := store[id := Jam];
      var patched := created[id := Jam.(status := "IN PROGRESS")];
      && Post(Some(PostBody(Str(Jam.title), Str(Jam.description), Num(7))), Db(true, true), Assigned(id, "OPEN"), store)
         == Released(201, Message(PostCreated), created)
      && Ticket(id, Jam.title, Jam.description, "OPEN") in Listing(created, order)
      && Patch(Some(PatchBody(Num(id), Str("IN PROGRESS"))), Db(true, true), created)
         == Released(200, Message(PatchDone), patched)
      && Ticket(id, Jam.title, Jam.description, "IN PROGRESS") in Listing(patched, order)
      && Delete(Some([("ticketId", NumberToString(id))]), Db(true, true), patched).store == DeleteRow(patched, id)
      && (forall t :: t in Listing(DeleteRow(patched, id), order) ==> t.ticket_id != id)
      && Delete(Some([("ticketId", NumberToString(id))]), Db(true, true), DeleteRow(patched, id))
         == Released(200, Message(DeleteDone), DeleteRow(patched, id))
  {
    CreateThenList(store, id, order);
    var created := store[id := Jam];
    PatchThenList(created, id, order);
    DeleteTwice(created[id := Jam.(status := "IN PROGRESS")], id, order);
  }

  /** A stored ticket the walk reaches is listed with its stored fields. */
  lemma ListedWhenPresent(store: Store, order: seq<int>, id: int)
    requires id in store && id in order
    ensures exists t :: t in Listing(store, order) && t.ticket_id == id
    ensures FromRow(SelectRow(id, store[id])) in Listing(store, order)
  {
    ListingMatchesStore(store, order);
    var t :| t in Listing(store, order) && t.ticket_id == id;
    assert t == FromRow(SelectRow(id, store[id]));
  }
}

=== FILE: seo.dfy ===
/** The string and record rules of the page-head component: the brand suffix
    of the title, the robots directive, and the default structured-data record. */
module Seo {
  import opened Wrappers
  import opened JsValues

  const Brand := "RixelDev"
  const TitleSuffix := " | RixelDev"

  /** `sub` occurs in `s` starting at index `i`. */
  predicate OccursAt(s: string, sub: string, i: int) {
    0 <= i && i + |sub| <= |s| && s[i..i + |sub|] == sub
  }

  /** `s.includes(sub)`. */
  predicate Contains(s: string, sub: string) {
    exists i | 0 <= i <= |s| - |sub| :: OccursAt(s, sub, i)
  }

  /** A text ending in the suffix contains the brand. */
  lemma SuffixCarriesBrand(title: string)
    ensures Contains(title + TitleSuffix, Brand)
  {
    var s := title + TitleSuffix;
    assert s[|title| + 3..|title| + 3 + |Brand|] == Brand;
    assert OccursAt(s, Brand, |title| + 3);
  }

  /** `title.includes("RixelDev") ? title : `${title} | RixelDev``: the result
      always names the brand, and is the title itself or the title with the
      suffix, so the title can always be read off the front of it. */
  function FullTitle(title: string): (r: string)
    ensures Contains(r, Brand)
    ensures title <= r
    ensures r == title <==> Contains(title, Brand)
    ensures r != title ==> r == title + TitleSuffix
  {
    if Contains(title, Brand) then title
    else
      SuffixCarriesBrand(title);
      title + TitleSuffix
  }

  /** Applying the title rule twice is applying it once. */
  lemma FullTitleIdempotent(title: string)
    ensures FullTitle(FullTitle(title)) == FullTitle(title)
  {
  }

  const RobotsSuffix := ", max-image-preview:large, max-snippet:-1, max-video-preview:-1"

  /** The `robots` meta content: the indexing word, the following word, then the
      fixed preview limits. */
  function RobotsContent(noindex: bool, nofollow: bool): (r: string)
    ensures |r| > |RobotsSuffix| + 7
    ensures noindex <==> r[..7] == "noindex"
    ensures !noindex ==> r[..7] == "index, "
    ensures r[|r| - |RobotsSuffix|..] == RobotsSuffix
    ensures var k := if noindex then 7 else 5;
      r[..k] == (if noindex then "noindex" else "index")
      && r[k..|r| - |RobotsSuffix|] == (if nofollow then ", nofollow" else ", follow")
  {
    var index := if noindex then "noindex" else "index";
    var follow := if nofollow then "nofollow" else "follow";
    var r := index + ", " + follow + RobotsSuffix;
    ThreeParts(index, ", " + follow, RobotsSuffix);
    assert r == index + (", " + follow) + RobotsSuffix;
    assert !noindex ==> r[..7] == index + ", ";
    assert "index, "[0] != "noindex"[0];
    r
  }

  /** The three parts of a concatenation can be read back by position. */
  lemma ThreeParts(a: string, b: string, c: string)
    ensures var r := a + b + c;
      r[..|a|] == a && r[|a|..|a| + |b|] == b && r[|a| + |b|..] == c
  {
  }

  /** Different flags give different directives: the string determines both. */
  lemma RobotsContentInjective(a: bool, b: bool, c: bool, d: bool)
    requires RobotsContent(a, b) == RobotsContent(c, d)
    ensures a == c && b == d
  {
  }

  /** `parts.join(sep)`. */
  function Join(parts: seq<string>, sep: string): (r: string)
    ensures parts == [] ==> r == ""
    ensures |parts| == 1 ==> r == parts[0]
    ensures parts != [] ==> parts[0] <= r
  {
    if parts == [] then ""
    else if |parts| == 1 then parts[0]
    else parts[0] + sep + Join(parts[1..], sep)
  }

  /** Joining one more part appends the separator and that part. */
  lemma {:induction false} JoinSnoc(parts: seq<string>, sep: string, last: string)
    requires parts != []
    ensures Join(parts + [last], sep) == Join(parts, sep) + sep + last
  {
    if |parts| == 1 {
      assert parts + [last] == [parts[0], last];
      assert [parts[0], last][1..] == [last];
    } else {
      assert (parts + [last])[1..] == parts[1..] + [last];
      JoinSnoc(parts[1..], sep, last);
    }
  }

  /** The `type` prop. */
  datatype PageType = Website | Article | Product | Profile

  /** The props the structured data is built from. Optional texts are None when
      not passed. The image is the already resolved image URL. */
  datatype SeoProps = SeoProps(
    title: string,
    description: string,
    author: string,
    canonical: string,
    imageUrl: string,
    pageType: PageType,
    publishedTime: Option<string>,
    modifiedTime: Option<string>,
    section: Option<string>,
    tags: seq<string>,
    siteName: string)

  /** The article-only members spread into the record. A None member is left
      out of the JSON (an `undefined` member or a spread of `false`). */
  datatype ArticleFields = ArticleFields(
    headline: string,
    datePublished: Option<string>,
    dateModified: Option<string>,
    authorType: string,
    authorName: string,
    articleSection: Option<string>,
    keywords: Option<string>)

  /** The default schema.org record. */
  datatype SchemaRecord = SchemaRecord(
    context: string,
    schemaType: string,
    name: string,
    url: string,
    description: string,
    image: string,
    publisherType: string,
    publisherName: string,
    logoType: string,
    logoUrl: string,
    article: Option<ArticleFields>)

  /** The structured data that is emitted: the caller's object, or the default. */
  datatype StructuredData<T> = Provided(value: T) | Generated(record: SchemaRecord)

  const PublisherName := "GDN Pro"
  const LogoUrl := "https://gdnpro.com/logo.png"

  /** The article members: `dateModified` falls back to the publication time
      when the modification time is falsy; the section and the keywords are
      present only when truthy / non-empty. */
  function ArticleMembers(p: SeoProps): (a: ArticleFields)
    ensures a.headline == p.title && a.datePublished == p.publishedTime && a.authorName == p.author
    ensures a.authorType == "Organization"
    ensures a.dateModified == if TruthyText(p.modifiedTime) then p.modifiedTime else p.publishedTime
    ensures a.articleSection.Some? <==> TruthyText(p.section)
    ensures a.articleSection.Some? ==> a.articleSection == p.section
    ensures a.keywords.Some? <==> |p.tags| > 0
    ensures a.keywords.Some? ==> a.keywords.value == Join(p.tags, ", ")
  {
    ArticleFields(
      p.title,
      p.publishedTime,
      if TruthyText(p.modifiedTime) then p.modifiedTime else p.publishedTime,
      "Organization",
      p.author,
      if TruthyText(p.section) then p.section else None,
      if |p.tags| > 0 then Some(Join(p.tags, ", ")) else None)
  }

  /** `structuredData || { ... }`: a passed object (always truthy) is used as
      it is; otherwise the default record, typed Article exactly for article
      pages and WebSite for every other page type, carrying the article members
      exactly for article pages. */
  function DefaultStructuredData<T>(p: SeoProps, structuredData: Option<T>): (r: StructuredData<T>)
    ensures structuredData.Some? ==> r == Provided(structuredData.value)
    ensures structuredData.None? ==> r.Generated?
    ensures r.Generated? ==>
      && (r.record.schemaType == "Article" <==> p.pageType == Article)
      && (r.record.schemaType == "WebSite" <==> p.pageType != Article)
      && (r.record.article.Some? <==> p.pageType == Article)
      && r.record.name == p.siteName && r.record.url == p.canonical
      && r.record.description == p.description && r.record.image == p.imageUrl
      && r.record.publisherName == PublisherName && r.record.logoUrl == LogoUrl
      && r.record.context == "https://schema.org"
      && r.record.publisherType == "Organization" && r.record.logoType == "ImageObject"
    ensures r.Generated? && p.pageType == Article ==> r.record.article == Some(ArticleMembers(p))
  {
    match structuredData
    case Some(o) => Provided(o)
    case None =>
      Generated(SchemaRecord(
        "https://schema.org",
        if p.pageType == Article then "Article" else "WebSite",
        p.siteName,
        p.canonical,
        p.description,
        p.imageUrl,
        "Organization",
        PublisherName,
        "ImageObject",
        LogoUrl,
        if p.pageType == Article then Some(ArticleMembers(p)) else None))
  }

  /** A page that is not an article gets the same default record whatever its
      article props (title, author, dates, section, tags) are. */
  lemma NonArticleIgnoresArticleProps<T>(p: SeoProps, q: SeoProps)
    requires p.pageType != Article && q.pageType != Article
    requires p.siteName == q.siteName && p.canonical == q.canonical
    requires p.description == q.description && p.imageUrl == q.imageUrl
    ensures DefaultStructuredData<T>(p, None) == DefaultStructuredData<T>(q, None)
  {
  }

  /** The keywords member of an article lists its tags joined by ", ": one tag
      as it is, and each further tag after a separator. */
  lemma {:induction false} ArticleKeywords<T>(p: SeoProps, tag: string)
    requires p.pageType == Article
    ensures var r := DefaultStructuredData<T>(p.(tags := [tag]), None);
      r.record.article.value.keywords == Some(tag)
    ensures p.tags != [] ==>
      var before := DefaultStructuredData<T>(p, None);
      var after := DefaultStructuredData<T>(p.(tags := p.tags + [tag]), None);
      after.record.article.value.keywords.value == before.record.article.value.keywords.value + ", " + tag
  {
    if p.tags != [] {
      JoinSnoc(p.tags, ", ", tag);
    }
  }
}

=== FILE: tickets.dfy ===
/** The tickets table and the three single statements the request handlers
    run against it, plus the listing query and its row decoding. */
module Tickets {
  import opened Wrappers

  /** One row of the tickets table. Its `ticket_id` is the store map's key.
      SQL NULL in a text column is the empty string (Oracle does not tell them
      apart); the owner column may be NULL. */
  datatype TicketRecord = TicketRecord(title: string, description: string, status: string, owner: Option<int>)

  /** The table: ticket id to row. */
  type Store = map<int, TicketRecord>

  /** A row of the listing query as the driver returns it, columns upper-cased. */
  datatype OracleTicketRow = OracleTicketRow(TICKET_ID: int, TITLE: string, DESCRIPTION: string, STATUS: string)

  /** The JSON shape of a ticket, shared by the listing response and the page. */
  datatype Ticket = Ticket(ticket_id: int, title: string, description: string, status: string)

  /** The character count `DBMS_LOB.SUBSTR(description, 4000, 1)` keeps. */
  const DescriptionLimit := 4000

  /** `DBMS_LOB.SUBSTR(d, 4000, 1)`: the first 4000 characters of the CLOB. */
  function LobPrefix(d: string): (r: string)
    ensures r <= d
    ensures |r| == if |d| <= DescriptionLimit then |d| else DescriptionLimit
  {
    if |d| <= DescriptionLimit then d else d[..DescriptionLimit]
  }

  /** `UPDATE tickets SET status = :s WHERE ticket_id = :id`. */
  function UpdateStatusRow(store: Store, id: int, status: string): (r: Store)
    ensures r.Keys == store.Keys
    ensures id in store ==> r[id] == store[id].(status := status)
    ensures forall k :: k in r && k != id ==> r[k] == store[k]
  {
    if id in store then store[id := store[id].(status := status)] else store
  }

  /** `DELETE FROM tickets WHERE ticket_id = :id`. */
  function DeleteRow(store: Store, id: int): (r: Store)
    ensures r.Keys == store.Keys - {id}
    ensures forall k :: k in r ==> r[k] == store[k]
  {
    store - {id}
  }

  /** What the listing query selects from one row. */
  function SelectRow(id: int, t: TicketRecord): (row: OracleTicketRow)
  {
    OracleTicketRow(id, t.title, LobPrefix(t.description), t.status)
  }

  /** An order a table scan can produce: every row of the table exactly once. */
  predicate Walks(store: Store, order: seq<int>) {
    && (forall i :: 0 <= i < |order| ==> order[i] in store)
    && (forall i, j :: 0 <= i < j < |order| ==> order[i] != order[j])
    && (forall k :: k in store ==> k in order)
  }

  /** The listing query's result set. The order of a query without ORDER BY is
      the database's choice; `order` is that choice, as a walk over ticket ids
      (an id that is not in the table yields no row). A scan of the whole table
      walks it as `Walks` says; ListingShowsTable gives what the result then is. */
  function Scan(store: Store, order: seq<int>): (rows: seq<OracleTicketRow>)
    ensures |rows| <= |order|
    ensures forall r :: r in rows ==> r.TICKET_ID in store && r == SelectRow(r.TICKET_ID, store[r.TICKET_ID])
  {
    if order == [] then []
    else if order[0] in store then [SelectRow(order[0], store[order[0]])] + Scan(store, order[1..])
    else Scan(store, order[1..])
  }

  /** The field-by-field mapping of one driver row to the JSON shape. */
  function FromRow(row: OracleTicketRow): (t: Ticket)
  {
    Ticket(row.TICKET_ID, row.TITLE, row.DESCRIPTION, row.STATUS)
  }

  /** `(result.rows ?? []).map(...)`: a missing row set is an empty list. */
  function DecodeRows(rows: Option<seq<OracleTicketRow>>): (r: seq<Ticket>)
    ensures rows.None? ==> r == []
    ensures rows.Some? ==> |r| == |rows.value|
    ensures rows.Some? ==> forall i :: 0 <= i < |r| ==>
      && r[i].ticket_id == rows.value[i].TICKET_ID
      && r[i].title == rows.value[i].TITLE
      && r[i].description == rows.value[i].DESCRIPTION
      && r[i].status == rows.value[i].STATUS
  {
    match rows
    case None => []
    case Some(rs) => seq(|rs|, i requires 0 <= i < |rs| => FromRow(rs[i]))
  }

  /** The list a successful GET returns for a table walked in `order`. */
  function Listing(store: Store, order: seq<int>): (ts: seq<Ticket>)
    ensures |ts| <= |order|
  {
    DecodeRows(Some(Scan(store, order)))
  }

  /** Decoding distributes over concatenation of result sets, so the listing of
      a walk is built ticket by ticket. */
  lemma ListingCons(store: Store, order: seq<int>)
    requires order != []
    ensures Listing(store, order) ==
      (if order[0] in store then [FromRow(SelectRow(order[0], store[order[0]]))] else [])
      + Listing(store, order[1..])
  {
  }

  /** Every ticket the listing shows is a row of the table, with the stored
      title and status and the stored description cut to 4000 characters;
      every row the walk reaches is shown. */
  lemma {:induction false} ListingMatchesStore(store: Store, order: seq<int>)
    ensures forall t :: t in Listing(store, order) ==>
      && t.ticket_id in store
      && t.title == store[t.ticket_id].title
      && t.description == LobPrefix(store[t.ticket_id].description)
      && t.status == store[t.ticket_id].status
    ensures forall k :: k in store && k in order ==>
      exists t :: t in Listing(store, order) && t.ticket_id == k
  {
    if order != [] {
      ListingCons(store, order);
      ListingMatchesStore(store, order[1..]);
      var head := if order[0] in store then [FromRow(SelectRow(order[0], store[order[0]]))] else [];
      assert Listing(store, order) == head + Listing(store, order[1..]);
      forall k | k in store && k in order
        ensures exists t :: t in Listing(store, order) && t.ticket_id == k
      {
        if k == order[0] {
          assert head[0] in Listing(store, order);
        } else {
          assert k in order[1..];
        }
      }
    }
  }

  /** Walked over stored ids only, the listing has one entry per step of the
      walk, in the walk's order. */
  lemma {:induction false} ListingOfWalk(store: Store, order: seq<int>)
    requires forall i :: 0 <= i < |order| ==> order[i] in store
    ensures |Listing(store, order)| == |order|
    ensures forall i :: 0 <= i < |order| ==>
      Listing(store, order)[i] == FromRow(SelectRow(order[i], store[order[i]]))
  {
    if order != [] {
      ListingCons(store, order);
      ListingOfWalk(store, order[1..]);
      var head := FromRow(SelectRow(order[0], store[order[0]]));
      assert Listing(store, order) == [head] + Listing(store, order[1..]);
      forall i | 0 < i < |order|
        ensures Listing(store, order)[i] == FromRow(SelectRow(order[i], store[order[i]]))
      {
        assert order[i] == order[1..][i - 1];
      }
    }
  }

  /** A walk that visits each key of a set once is as long as the set is large. */
  lemma {:induction false} WalkLength(keys: set<int>, order: seq<int>)
    requires forall i :: 0 <= i < |order| ==> order[i] in keys
    requires forall i, j :: 0 <= i < j < |order| ==> order[i] != order[j]
    requires forall k :: k in keys ==> k in order
    ensures |order| == |keys|
  {
    if order != [] {
      var rest := order[1..];
      var others := keys - {order[0]};
      forall k | k in others ensures k in rest {
        var i :| 0 <= i < |order| && order[i] == k;
        assert i != 0;
        assert rest[i - 1] == k;
      }
      forall i | 0 <= i < |rest| ensures rest[i] in others {
        assert rest[i] == order[i + 1];
      }
      WalkLength(others, rest);
    } else {
      assert forall k :: k !in keys;
    }
  }

  /** A scan of the whole table lists every ticket exactly once, each with its
      stored fields and its description cut to 4000 characters, and nothing
      else, whatever order the database picks. */
  lemma ListingShowsTable(store: Store, order: seq<int>)
    ensures Walks(store, order) ==>
      var ts := Listing(store, order);
      && |ts| == |store|
      && (forall k :: k in store ==> FromRow(SelectRow(k, store[k])) in ts)
      && (forall t :: t in ts ==> t.ticket_id in store && t == FromRow(SelectRow(t.ticket_id, store[t.ticket_id])))
      && (forall i, j :: 0 <= i < j < |ts| ==> ts[i].ticket_id != ts[j].ticket_id)
  {
    if Walks(store, order) {
      ListingOfWalk(store, order);
      WalkLength(store.Keys, order);
      assert |store.Keys| == |store|;
      var ts := Listing(store, order);
      forall k | k in store ensures FromRow(SelectRow(k, store[k])) in ts {
        var i :| 0 <= i < |order| && order[i] == k;
        assert ts[i] == FromRow(SelectRow(k, store[k]));
      }
    }
  }

  /** Two scans of the same table may order the rows differently, but they
      list the same tickets, the same number of them. */
  lemma ListingOrderFree(store: Store, one: seq<int>, other: seq<int>)
    requires Walks(store, one) && Walks(store, other)
    ensures |Listing(store, one)| == |Listing(store, other)|
    ensures forall t :: t in Listing(store, one) <==> t in Listing(store, other)
  {
    ListingShowsTable(store, one);
    ListingShowsTable(store, other);
  }

  /** Every table has an order a scan can walk it in. */
  lemma {:induction false} SomeWalk(store: Store)
    ensures exists order :: Walks(store, order)
    decreases |store.Keys|
  {
    if |store| > 0 {
      if forall x :: x !in store {
        assert false;
      }
      var k :| k in store;
      var smaller := store - {k};
      assert |smaller.Keys| < |store.Keys| by {
        assert smaller.Keys == store.Keys - {k};
      }
      SomeWalk(smaller);
      var rest :| Walks(smaller, rest);
      var order := [k] + rest;
      forall i, j | 0 <= i < j < |order| ensures order[i] != order[j] {
        if i == 0 {
          assert order[j] == rest[j - 1] && rest[j - 1] in smaller;
        } else {
          assert order[i] == rest[i - 1] && order[j] == rest[j - 1];
        }
      }
      forall x | x in store ensures x in order {
        if x != k {
          assert x in smaller;
        }
      }
      assert Walks(store, order);
    } else {
      assert Walks(store, []);
    }
  }
}

=== FILE: wrappers.dfy ===
/** The optional-value datatype shared by every module of the model. */
module Wrappers {

  /** A value that may be missing: JavaScript's `null`/`undefined`, SQL NULL,
      or the NaN that a failed parse produces, depending on where it is used. */
  datatype Option<+T> = None | Some(value: T)
}
